=== FILE: README.md ===
# AML playground core, modelled in Dafny

The AML playground is a set of browser pages around an external AML/AMF
parsing library: the main playground, a visualization page for AML
dialects and documents, a shape validation page and a diff page. Most of
the code wires Knockout observables, a Monaco editor and a JointJS diagram
together. This project models the pieces of logic that stand on their own,
and proves what they promise:

- `Utils`: `label(uri)`, the short `/segment#fragment` name of a unit or
  element URI.
- `ModelProxies`: the `ModelProxy` around a parsed unit, and its memoised
  worklist walk over the reference graph (`transitiveReferences`). It also
  covers the `references` and `nestedModel` queries built on that walk.
- `Graph`: `PlaygroundGraph.process`, `makeNode` and `makeLink`, which build
  the diagram's node rectangles and parent-to-child links in place. It also
  covers the cell filter inside `render`.
- `Debounce`: the edit debounce shared by the playground and visualization
  pages. It consists of a change counter, a dirty flag, and timers that carry
  a snapshot of the counter.
- `Playground`: the playground view model.
  - `canParse`.
  - The update guard.
  - `makeReference` and `resetReferences`.
  - `resetDomainUnits`, which groups domain units by kind and carries over
    the `expanded` flag.
  - `isTopLevelUnit`.
  - The recursive `pathTo` search.
  - `selectNavigatorFile`.
- `Diff`: the diff table's sort-key toggle and its comparator.
- `Visualization`: the visualization view model.
  - `getModelName`.
  - The debounce guard.
  - The counter reset done by `loadInitial*`.
  - The `expanded` carry-over in `resetUnits`.
  - The `onSelectedDiagramId` guard.
- `Validation`: the validation view model.
  - Derivation of the error key (`errorsMapShape`, `hasError`).
  - The select-if-different setters.
  - Restoration of state when a parsed shape cannot be processed.
  - The RAML header round trip.
- `Strings`, `Sequences`, `Wrappers`: JavaScript's `indexOf`, `split`, `join`
  and "starts with" on `seq<char>`, the key order of a JavaScript object, and
  `Option`.

The modelling choices are the following:

- Knockout observables become plain fields of Dafny classes.
- Timer callbacks become explicit events that carry their snapshot.
- Results of the external library become parameters:
  - a reference graph of units;
  - the domain models of a reference;
  - the validation results;
  - whether a call throws.
- JavaScript objects used as dictionaries become a map plus a key sequence
  in insertion order.
- Where the source throws, the model returns `None`, a `Throws` value or a
  `threw` flag.

## Model

| member | source | states |
|---|---|---|
| `Utils.Label` | src/utils.ts:1-8 | the label always starts with '/', so it is never empty and the fallback to the bare uri is never taken |
| `Utils.AfterLast` | src/utils.ts:7 | reference definition of `split('/').pop()`: the longest suffix free of the separator, preceded by the separator when shorter than the text |
| `Utils.AfterLastAppend` | src/utils.ts:7 | everything up to the last separator does not affect the last piece |
| `Utils.LastPieceIsAfterLast` | src/utils.ts:5 | the popped piece of a one-character split equals the independent `AfterLast` |
| `Utils.NoSeparatorIsWhole` | src/utils.ts:7 | text without the separator is its own last piece |
| `Utils.LabelOfFragmentUri` | src/utils.ts:2-5 | with a '#', the label is "/" + the last '/'-segment before the first '#' + "#" + the text between the first and second '#' |
| `Utils.LabelOfPlainUri` | src/utils.ts:7 | without '#', the label is "/" + the last '/'-segment, and it holds exactly one '/' and no '#' |
| `Utils.LabelOfDirectoryUri` | src/utils.ts:7 | a plain uri ending in '/' labels as "/" |
| `Utils.LabelOfBareName` | src/utils.ts:7 | a uri with neither '/' nor '#' labels as "/" + uri |
| `Strings.IndexFrom` | src/playground/view_model.ts:583 | `indexOf(sep, k)` returns -1 iff nothing occurs from `k`, else the first occurrence at or after `k` |
| `Strings.IndexOf` | src/utils.ts:2 | `indexOf` returns -1 exactly when the separator occurs nowhere, else its first occurrence |
| `Strings.IndexOfZeroIsPrefix` | src/playground/view_model.ts:583 | `indexOf(p) === 0` iff the text starts with `p` |
| `Strings.Split` | src/utils.ts:3-4 | `split` yields at least one piece; the whole text when the separator is absent, else at least two pieces, the first being the text before the first occurrence |
| `Strings.JoinSplit` | src/playground/view_model.ts:580-582 | joining the pieces of a split with the same separator gives the text back |
| `Strings.SplitPiecesAreFree` | src/validation/view_model.ts:176 | no piece of a split contains the separator |
| `Strings.SplitAfterFreeHead` | src/utils.ts:5 | splitting `head + c + tail` on `c`, with no `c` in `head`, yields `head` followed by the pieces of `tail` |
| `Strings.FreeOfChar` | src/utils.ts:5 | for a one-character separator, "does not occur" is non-membership |
| `Sequences.FirstOccurrences` | src/main/model_proxy.ts:64-66 | the key order of an object filled from a sequence: the same elements, each once |
| `ModelProxies.LocationsOf` | src/main/model_proxy.ts:32 | `.map(u => u.location)`, element by element |
| `ModelProxies.Put` | src/main/model_proxy.ts:52-58 | defined as `refsAcc[loc] = u`: the unit is stored under `loc`, and a new key goes last while an existing key keeps its place |
| `ModelProxies.Seed` | src/main/model_proxy.ts:51-52 | the seeded accumulator is consistent and has no pending work |
| `ModelProxies.Visit` | src/main/model_proxy.ts:56-61 | a visit keeps every recorded unit, only appends keys, and pushes work only when it records a new location |
| `ModelProxies.VisitProgress` | src/main/model_proxy.ts:57-59 | a visit either records a new location or leaves the stack unchanged |
| `ModelProxies.Drain` | src/main/model_proxy.ts:53-62 | the worklist loop terminates on any finite graph, cyclic or not, ends with an empty stack and never overwrites a recorded unit |
| `ModelProxies.Values` | src/main/model_proxy.ts:63-66 | the read-out holds one unit per key |
| `ModelProxies.FinalWalk` | src/main/model_proxy.ts:51-62 | the walk's final state is consistent |
| `ModelProxies.TransitiveRefs` | src/main/model_proxy.ts:49-71 | every unit in the result belongs to the graph |
| `ModelProxies.SeedSound` | src/main/model_proxy.ts:52 | every seeded unit is reachable from the root |
| `ModelProxies.SeedCovers` | src/main/model_proxy.ts:52 | every direct reference's location is a key of the seeded accumulator |
| `ModelProxies.RecordSound` | src/main/model_proxy.ts:57-59 | recording a reachable unit under a new location and stacking its references keeps everything recorded or pending reachable |
| `ModelProxies.VisitSound` | src/main/model_proxy.ts:56-61 | a visit of a reachable unit keeps everything recorded or pending reachable |
| `ModelProxies.PopSound` | src/main/model_proxy.ts:55 | popping the stack keeps the state sound, and the popped unit is reachable |
| `ModelProxies.DrainSound` | src/main/model_proxy.ts:54-62 | the loop keeps everything recorded reachable |
| `ModelProxies.TransitiveRefsReachable` | src/main/model_proxy.ts:52-60 | every unit in the result is reachable from the root along `references()` |
| `ModelProxies.TransitiveRefsDistinctLocations` | src/main/model_proxy.ts:51-66 | the result holds at most one unit per location |
| `ModelProxies.SeedKeysOrder` | src/main/model_proxy.ts:52 | the seeded keys are the direct references' locations in first-occurrence order |
| `ModelProxies.SeedValuesLast` | src/main/model_proxy.ts:52 | a location shared by several direct references holds the last of them |
| `ModelProxies.SeedOrder` | src/main/model_proxy.ts:52 | key order and stored units of the seeded accumulator together |
| `ModelProxies.LastWithExtends` | src/main/model_proxy.ts:52 | the last direct reference with a location stays the last when a unit with another location follows |
| `ModelProxies.FinalExtendsSeed` | src/main/model_proxy.ts:53-62 | the loop only appends keys after the seeded ones and keeps their units |
| `ModelProxies.TransitiveRefsStartWithDirect` | src/main/model_proxy.ts:51-66 | the result starts with the direct references' locations, each once in first-insertion order, each holding the last direct reference with that location |
| `ModelProxies.TransitiveRefsCoverDirect` | src/main/model_proxy.ts:52 | every direct reference's location is in the result |
| `ModelProxies.WalkSkipsReferencesOfNewUnits` | src/main/model_proxy.ts:59 | because `ref.references()` is enqueued instead of `ref`, a reachable unit can be missing (chain root→a→b→c yields only a and b) |
| `ModelProxies.CyclicWalkIncludesRoot` | src/main/model_proxy.ts:53-62 | on a cycle through the root the walk terminates and the root's own unit appears in its transitive references |
| `ModelProxies.FirstMatch` | src/main/model_proxy.ts:39-42 | `filter(...)[0]`: the first reference located at `loc` or at `loc` minus its last character, or none at all |
| `ModelProxies.SeedAccumulator` | src/main/model_proxy.ts:51-52 | the seeding `forEach` computes `Seed` |
| `ModelProxies.VisitReferences` | src/main/model_proxy.ts:56-61 | the inner `forEach` computes `Visit` |
| `ModelProxies.DrainPending` | src/main/model_proxy.ts:53-62 | the `while` loop computes `Drain` |
| `ModelProxies.ReadOut` | src/main/model_proxy.ts:63-66 | the `for ... in` read-out computes `Values` |
| `ModelProxies.ModelProxy.constructor` | src/main/model_proxy.ts:17-19 | a new proxy wraps the unit and has no memoised walk |
| `ModelProxies.ModelProxy.TransitiveReferences` | src/main/model_proxy.ts:49-71 | returns the walk's result and memoises it; a memo once set is returned unchanged and never invalidated |
| `ModelProxies.ModelProxy.References` | src/main/model_proxy.ts:29-33 | the unit's own location, then the transitive references' locations in order; length 1 + number of transitive references |
| `ModelProxies.ModelProxy.NestedModel` | src/main/model_proxy.ts:35-45 | `this` for its own location (no walk); otherwise the first matching transitive reference, or `Undefined` where the source throws |
| `Graph.MakeRect` | src/main/graph.ts:176-199 | defined as the rectangle `makeNode` builds: the element's label or `label(id)` as text, 10 × its length wide, 30 high, the selected stroke only for the selected id; `ProcessedNodeShape` states it for built nodes |
| `Graph.Step` | src/main/graph.ts:39-44 | defined as one turn of `process`: `makeNode` for a new id, then a link from a truthy parent id when both ends have nodes |
| `Graph.Build` | src/main/graph.ts:35-45 | `process` from no nodes and no links: node keys are listed once, they are exactly the keys of the node map, and each node carries its own id |
| `Graph.IdList` | src/main/graph.ts:39-40 | the ids of the elements `forEach` visits, in list order |
| `Graph.BuildOrder` | src/main/graph.ts:39-40 | the node keys are in insertion order: the element ids, each once, where it first occurs |
| `Graph.IdsSnoc` | src/main/graph.ts:39 | the ids of a list grow by the last element's id |
| `Graph.BuildKeys` | src/main/graph.ts:178 | there is exactly one node per distinct element id |
| `Graph.BuildNodesAreFirstElements` | src/main/graph.ts:178-199 | each node is built from the first element with its id |
| `Graph.FirstWithExtends` | src/main/graph.ts:178 | the first element with an id stays first when elements are appended |
| `Graph.FirstWithNew` | src/main/graph.ts:178 | an id not seen before is first at its own position |
| `Graph.BuildLinksAreExpected` | src/main/graph.ts:41-43 | the links are, in input order, one per element whose truthy parent id occurs at or before it |
| `Graph.ExpectedLinksBound` | src/main/graph.ts:39-44 | there are no more links than elements naming a parent |
| `Graph.ProcessNodesAndLinks` | src/main/graph.ts:35-45 | the outcome depends only on the element list; the properties above hold together |
| `Graph.ProcessedNodeShape` | src/main/graph.ts:176-195 | a node's text is the element's label or `label(id)`; it is 10 × text length wide and 30 high; stroke width '3' exactly for the selected id |
| `Graph.ChildBeforeParentGetsNoLink` | src/main/graph.ts:202-204 | a child listed before its parent gets no link |
| `Graph.FilterCells` | src/main/graph.ts:60-62 | a cell is kept iff it is not a link or both its ends are among the cell ids, and nothing is added |
| `Graph.FilterOne` | src/main/graph.ts:60-62 | a single cell is kept exactly when it passes the test |
| `Graph.FilterAppend` | src/main/graph.ts:60-62 | filtering a concatenation concatenates the filtered parts, so with `FilterOne` the kept cells stay in order and keep their multiplicity |
| `Graph.FilterKeepsAll` | src/main/graph.ts:60-62 | when every cell passes, the filter returns the cells unchanged |
| `Graph.LinksEndAtNodes` | src/main/graph.ts:202-206 | both ends of every link `process` draws are nodes |
| `Graph.RenderKeepsProcessedCells` | src/main/graph.ts:51-62 | `render`'s filter drops nothing that `process` built |
| `Graph.PlaygroundGraph.constructor` | src/main/graph.ts:33 | a new graph has its selected id; nodes, links and elements are unset until `process` runs and are modelled as empty |
| `Graph.PlaygroundGraph.Process` | src/main/graph.ts:35-45 | the in-place `forEach` discards the previous nodes and links and leaves exactly `Build(elements)` |
| `Graph.PlaygroundGraph.MakeNode` | src/main/graph.ts:176-200 | a node is added, last in key order, only for an id without one; otherwise nothing changes |
| `Graph.PlaygroundGraph.MakeLink` | src/main/graph.ts:202-206 | a link is appended iff both ends already have nodes |
| `Debounce.Edit` | src/playground/view_model.ts:84-85 | defined as: a change adds one to the counter and sets the flag; the new counter value is the timer's snapshot |
| `Debounce.Update` | src/playground/view_model.ts:161-165 | defined as the guard: with the flag set, it clears the flag and zeroes the counter; otherwise nothing changes |
| `Debounce.Fire` | src/playground/view_model.ts:87-91 | defined as a timer: the update runs only when the counter still equals the snapshot, and reparses only when the flag was set |
| `Debounce.Reset` | src/visualization/view_model.ts:87-88 | defined as `loadInitial*`'s reset: the counter is zeroed and the flag is left alone |
| `Debounce.Snapshots` | src/playground/view_model.ts:86-92 | the snapshots of `k` successive changes are the counter values c+1 … c+k |
| `Debounce.EventsKeepValid` | src/playground/view_model.ts:83-93 | every event keeps the flag set while changes are pending |
| `Debounce.MatchingTimerReparses` | src/playground/view_model.ts:88-90 | a timer whose snapshot still matches finds the flag set: it reparses and leaves a clean state |
| `Debounce.CleanUpdateIsIdle` | src/playground/view_model.ts:161-163 | with the flag clear, the update changes nothing and does not reparse |
| `Debounce.StaleTimerIsIdle` | src/playground/view_model.ts:88 | a timer with an outdated snapshot does nothing |
| `Debounce.EditsCount` | src/playground/view_model.ts:84-85 | `k` changes add `k` to the counter and set the flag |
| `Debounce.OutdatedTimersAreIdle` | src/playground/view_model.ts:88 | timers that all miss the counter do nothing at all |
| `Debounce.FireAllSplit` | src/playground/view_model.ts:86-92 | idle timers followed by one more: only the last can act |
| `Debounce.BurstReparsesOnce` | src/playground/view_model.ts:83-93 | a burst of `k` changes whose timers then fire in order reparses exactly once and ends clean |
| `Debounce.LeftoverTimerCanFireEarly` | src/playground/view_model.ts:152-156 | a timer left over from before a section-switch update can match a later change and reparse early |
| `Playground.CanParse` | src/playground/view_model.ts:54-56 | defined as: no parser chosen yet, or the editor shows the chosen parser's section; `Playground.ViewModel.OnParsed` states when it holds after a parse |
| `Playground.LocationDir` | src/playground/view_model.ts:580-582 | the directory of the current location is not empty and ends in '/' |
| `Playground.MakeReference` | src/playground/view_model.ts:577-599 | the result is none (a throw) iff the reference is null; otherwise id = reference, label = `label(reference)`, and remote iff it starts with "http" |
| `Playground.MakeReferenceIgnoresLocation` | src/playground/view_model.ts:580-597 | the entry does not depend on the current location |
| `Playground.ReferenceList` | src/playground/view_model.ts:566-568 | one entry per location, in order, each being `makeReference` of it |
| `Playground.IndexByIdLast` | src/playground/view_model.ts:435-437 | the previous-units index holds an id iff some unit has it, and holds the last unit with that id |
| `Playground.Grouped` | src/playground/view_model.ts:441-451 | the grouping lists each kind once and gives each listed kind a group |
| `Playground.DomainUnits` | src/playground/view_model.ts:430-454 | what `resetDomainUnits` stores is well grouped |
| `Playground.GroupedByKind` | src/playground/view_model.ts:441-451 | kinds appear in the order of their first non-null root, and each group is that kind's roots in order, null roots skipped, with `expanded` carried |
| `Playground.DomainUnitsSpec` | src/playground/view_model.ts:430-454 | there are no groups without a selected reference; each root takes `expanded` from the last previous unit with its id, and keeps its own otherwise |
| `Playground.LastWithId` | src/playground/view_model.ts:314-318 | the `forEach` ends with a unit that has the id, and with none iff no unit of the group has it |
| `Playground.LastWithIdIsLast` | src/playground/view_model.ts:314-318 | later matches overwrite `found`, so it is the last unit with the id |
| `Playground.TopLevelUnit` | src/playground/view_model.ts:312-324 | the result is none iff no kind has a unit with the id, and a result has the id |
| `Playground.TopLevelUnitFirst` | src/playground/view_model.ts:312-324 | a result is the last unit with the id in the first kind, in key order, that has one; every earlier kind has none |
| `Playground.TopLevelUnitShift` | src/playground/view_model.ts:312-324 | a kind without the id, put in front, does not change which kind answers first |
| `Playground.PathTo` | src/playground/view_model.ts:203-207 | defined as: nothing unless the node passes the guard; `acc` plus the node when it has the id; otherwise the search of its properties with the node appended to `acc` |
| `Playground.SearchProps` | src/playground/view_model.ts:208-226 | defined as the `for ... in` over the properties in order: an array-valued property is searched item by item, any other value directly, and the first non-null result is returned |
| `Playground.SearchItems` | src/playground/view_model.ts:210-218 | defined as the loop over an array property's items in order, going on to the next property at its end |
| `Playground.PrependPath` | src/playground/view_model.ts:206-208 | a path found below a searched node extends to a path from that node |
| `Playground.PathToSound` | src/playground/view_model.ts:203-230 | a result is `acc` followed by a chain of searched nodes from `next` down to a node with the target id |
| `Playground.SearchPropsSound` | src/playground/view_model.ts:208-226 | the property loop only returns such chains, starting at a child of the object |
| `Playground.SearchItemsSound` | src/playground/view_model.ts:211-218 | the array loop only returns such chains, starting at an item |
| `Playground.PathToComplete` | src/playground/view_model.ts:203-230 | whenever such a chain from `next` exists, `pathTo` returns something |
| `Playground.TailIsPath` | src/playground/view_model.ts:203-206 | the tail of a chain is a chain |
| `Playground.SearchPropsComplete` | src/playground/view_model.ts:208-226 | the property loop finds a chain through any later property |
| `Playground.SearchItemsComplete` | src/playground/view_model.ts:211-218 | the array loop finds a chain through any later item |
| `Playground.PathToSpec` | src/playground/view_model.ts:203-230 | `pathTo` succeeds iff a chain to the target exists, and what it returns is `acc` followed by such a chain |
| `Playground.FirstFromHere` | src/playground/view_model.ts:213-223 | a search that succeeds at the starting position is the first success |
| `Playground.FirstFromShift` | src/playground/view_model.ts:208-226 | starting earlier, at positions whose searches all fail, finds the same first success |
| `Playground.SearchPropsFirst` | src/playground/view_model.ts:208-226 | a result of the property loop from property `i` is the search of the first position, property by property and item by item, that succeeds; every earlier position fails |
| `Playground.SearchItemsFirst` | src/playground/view_model.ts:210-218 | the same from item `j` of the array property `i` on |
| `Playground.PathToFirst` | src/playground/view_model.ts:203-230 | below a node without the id, the result is the search from the first child position, in property then item order, from which a chain to the id exists; no earlier child has such a chain |
| `Playground.ParseAction` | src/playground/view_model.ts:340-343 | defined as `doParse`: a parse for the raml, open-api and api-model sections only, nothing otherwise |
| `Playground.UpdateAction` | src/playground/view_model.ts:160-182 | nothing happens without the flag; a parse happens without an active model; otherwise the active model's location is updated |
| `Playground.NestedLocation` | src/playground/view_model.ts:189-194 | the location activated is the reference id itself, or the id minus its last character; the document's own id activates the document |
| `Playground.PushReferences` | src/playground/view_model.ts:566-568 | the push loop builds `ReferenceList` |
| `Playground.IndexPrevious` | src/playground/view_model.ts:435-437 | the nested loops index the previous groups, in key order, by id |
| `Playground.GroupDomains` | src/playground/view_model.ts:441-451 | the `forEach` builds `Grouped` |
| `Playground.ViewModel.constructor` | src/playground/view_model.ts:31-53 | the initial state: document level, "raml" section, no parser, clean counter, no models, references or selection |
| `Playground.ViewModel.OnContentChange` | src/playground/view_model.ts:83-92 | an edit bumps the counter and sets the flag; the timer carries the new counter value |
| `Playground.ViewModel.UpdateDocumentModel` | src/playground/view_model.ts:160-182 | the debounce guard: the counter and flag go through `Update`, and the action is `UpdateAction` |
| `Playground.ViewModel.OnReloadTimer` | src/playground/view_model.ts:86-92 | the update runs only if the counter still equals the snapshot |
| `Playground.ViewModel.ResetReferences` | src/playground/view_model.ts:560-573 | at document level, one entry per `documentModel.references()`, in order; at domain level one entry for the current location; nothing without both models |
| `Playground.ViewModel.ResetDomainUnits` | src/playground/view_model.ts:430-454 | `domainUnits` becomes `DomainUnits` of the selection, the previous groups and the reference map |
| `Playground.ViewModel.IsTopLevelUnit` | src/playground/view_model.ts:312-324 | the loops compute `TopLevelUnit` over the kinds in key order |
| `Playground.ViewModel.OnParsed` | src/playground/view_model.ts:350-361 | after a parse the new document is active, selected and focused, the references are reset, and `canParse` holds iff the parsed section is the editor's section |
| `Playground.ViewModel.SelectNavigatorFile` | src/playground/view_model.ts:184-199 | the pending update runs first; an already selected reference leaves focus, model, selection and domain units untouched |
| `Playground.ViewModel.FocusReference` | src/playground/view_model.ts:186-198 | focus moves to the reference; the nested model becomes active, the reference is selected and the domain units are recomputed, unless `nestedModel` throws, in which case only the focus has moved |
| `Diff.StrLessIrreflexive` | src/diff/view_model.ts:94-96 | no string is below itself |
| `Diff.StrLessAsymmetric` | src/diff/view_model.ts:94-96 | string order is asymmetric |
| `Diff.StrLessTotal` | src/diff/view_model.ts:94-96 | any two distinct strings are ordered |
| `Diff.StrLessTransitive` | src/diff/view_model.ts:94-96 | string order is transitive |
| `Diff.Keys` | src/diff/view_model.ts:82-93 | defined as the keys: both strings when `a`'s property is a string (a missing one on `b` counts as ""), lengths when it is an array, 0 and 0 otherwise; none where reading `b`'s length throws |
| `Diff.Compare` | src/diff/view_model.ts:94-100 | defined as: the direction when `a`'s key is smaller, its negation when larger, 0 otherwise |
| `Diff.CompareOrder` | src/diff/view_model.ts:87-100 | on strings, direction 1 sorts descending and -1 ascending; 0 exactly for equal strings |
| `Diff.CompareLengths` | src/diff/view_model.ts:90-100 | arrays compare by length in the same way |
| `Diff.CompareAntisymmetric` | src/diff/view_model.ts:94-100 | on two strings or two arrays the comparator never throws, and swapping the nodes negates the result |
| `Diff.CompareFlip` | src/diff/view_model.ts:94-100 | reversing the direction negates every result |
| `Diff.MixedFieldsAsymmetric` | src/diff/view_model.ts:84-93 | mixed properties break antisymmetry: missing vs. string ties one way only, and array vs. missing throws one way only |
| `Diff.Toggle` | src/diff/view_model.ts:50-56 | defined as: the same key negates the direction, another key becomes the sort key with direction 1 |
| `Diff.ToggleProperties` | src/diff/view_model.ts:50-56 | the same key negates the direction, a new key resets it to 1 and is stored; the direction stays ±1; choosing the current sort key twice restores the direction, and choosing a new key twice leaves it at -1 |
| `Diff.ViewModel.constructor` | src/diff/view_model.ts:27-28 | the table starts sorted by "assertionsAdded" with direction 1 |
| `Diff.ViewModel.NodesSortBy` | src/diff/view_model.ts:50-57 | the fields become `Toggle` of the old ones, and the direction stays 1 or -1 |
| `Visualization.GetModelName` | src/visualization/view_model.ts:110-116 | 'document' maps to `documentModel`, anything else to `dialectModel`; the section defaults to the current one |
| `Visualization.ById` | src/visualization/view_model.ts:127-129 | defined as `unitsMap`: the previous units by id, a later unit overwriting an earlier one |
| `Visualization.Carried` | src/visualization/view_model.ts:131-136 | the new units in order, each with its own id, taking `expanded` from the indexed previous unit if there is one |
| `Visualization.ByIdLast` | src/visualization/view_model.ts:127-129 | `unitsMap` holds an id iff a previous unit has it, and holds the last such unit |
| `Visualization.ResetUnitsCarry` | src/visualization/view_model.ts:126-136 | each new unit takes `expanded` from the last previous unit with its id, and keeps its own where there is none |
| `Visualization.SelectedDiagramOutcome` | src/visualization/view_model.ts:171-177 | nothing happens iff the id or unit is undefined; otherwise the current model is read, which throws while it is undefined, since the guard tests only for null |
| `Visualization.ViewModel.constructor` | src/visualization/view_model.ts:9-22 | the document section, no models, no units, clean counter |
| `Visualization.ViewModel.HandleModelContentChange` | src/visualization/view_model.ts:53-66 | a change bumps the counter and sets the flag; the snapshot is at least 1 |
| `Visualization.ViewModel.UpdateModel` | src/visualization/view_model.ts:68-81 | a parse starts iff the flag was set, which clears it and zeroes the counter; the result goes to `getModelName(section)` |
| `Visualization.ViewModel.OnReloadTimer` | src/visualization/view_model.ts:56-63 | the update runs iff the counter still equals the snapshot, and then it does parse |
| `Visualization.ViewModel.OnModelParsed` | src/visualization/view_model.ts:78-81 | `this[modelName] = model`, leaving the other model alone |
| `Visualization.ViewModel.ChangeEditorSection` | src/visualization/view_model.ts:36-38 | writing the current section again does nothing, since the observable notifies only on a change; otherwise, before the switch, pending edits are parsed into the OLD section's model |
| `Visualization.ViewModel.LoadInitial` | src/visualization/view_model.ts:87-98 | loading an initial file zeroes the counter and leaves the flag alone |
| `Visualization.ViewModel.ResetUnits` | src/visualization/view_model.ts:118-141 | on success the units become `Carried` from the old list; on an error they are left alone; it fails while the current model is undefined |
| `Visualization.IndexUnits` | src/visualization/view_model.ts:127-129 | the `forEach` builds `ById` |
| `Visualization.CarryUnits` | src/visualization/view_model.ts:131-136 | the `forEach` builds `Carried` |
| `Validation.ErrorKey` | src/validation/view_model.ts:176 | defined as `id.split("document/type")[1]`, undefined when there is no second piece |
| `Validation.HasError` | src/validation/view_model.ts:142-146 | defined as `hasError`: the map's entry under the key of the shape id ("" for none), coerced to "undefined" when there is no key, false when absent |
| `Validation.ErrorKeySpec` | src/validation/view_model.ts:176 | the key is the text between the first "document/type" and the next one or the end; undefined without the marker |
| `Validation.ErrorsMap` | src/validation/view_model.ts:173-178 | exactly the results' keys are mapped, each to true, with undefined coerced to "undefined" |
| `Validation.HasErrorSpec` | src/validation/view_model.ts:142-146 | a shape is marked iff some result yields the same key |
| `Validation.UnmarkedKey` | src/validation/view_model.ts:176 | an id without "document/type" has the key "undefined" |
| `Validation.HasErrorUnmarked` | src/validation/view_model.ts:142-146 | a shape id without the marker is marked as soon as any result id without the marker exists |
| `Validation.SelectShape` | src/validation/view_model.ts:148-152 | defined as: the shape replaces the selection only when there is none or its id differs |
| `Validation.SelectError` | src/validation/view_model.ts:154-158 | defined as the same rule on the results' ids |
| `Validation.SelectionSpec` | src/validation/view_model.ts:148-158 | after a selection the id is selected; reselecting is idempotent; an equal id does not replace the selection (shapes and errors) |
| `Validation.RamlParseInput` | src/validation/view_model.ts:41-43 | defined as the RAML branch of `parsingFn`: the "RAML 1.0" parser and the header line followed by the editor text |
| `Validation.DropFirstLine` | src/validation/view_model.ts:196-199 | defined as: split on newlines, drop the first line, join the rest with newlines |
| `Validation.HeaderRoundTrip` | src/validation/view_model.ts:196-199 | dropping the first line of the RAML text handed to the parser gives the user's text back |
| `Validation.ViewModel.constructor` | src/validation/view_model.ts:20-30 | the "raml" section, with no shapes, errors, selection, error keys or model |
| `Validation.ViewModel.SelectShapeOf` | src/validation/view_model.ts:148-152 | `selectShape` stores `SelectShape` of the old selection |
| `Validation.ViewModel.SelectErrorOf` | src/validation/view_model.ts:154-158 | `selectError` stores `SelectError` of the old selection |
| `Validation.ViewModel.OnParsed` | src/validation/view_model.ts:43-90 | with an encoded shape, model, syntax and text are set and the shape is selected; if starting the validation throws, selection, shapes and errors are put back |
| `Validation.ViewModel.OnValidationReport` | src/validation/view_model.ts:171-178 | the errors become the results and the error keys are `ErrorsMap` of them; `hasError` then holds iff some result yields the shape's key |

## Left out

- Calls into the external AMF library become inputs to the model: parsing, generation, `units`, `findById`, payload validation and `Core.init`. A unit's `references()` is a graph given as data.
- Editor and diagram work is not modelled, because it is DOM, layout and floating-point work:
  - Monaco editor interaction: models, decorations, markers, and all of `src/main/common_view_model.ts`;
  - JointJS layout, the paper, zoom and centring (`paperScale`, `centerGraphX`, `zoomIn`/`zoomOut`, `resetZoom`, `render`'s extent computation);
  - `toggleFullscreen`.
- Real time is not modelled: timers are explicit events. The race where an in-flight parse overwrites newer state is not modelled either, because a parse result is handled as one atomic event.
- Knockout `apply`/`applyBindings`, subscriptions and the `AMF_LOADING_EVENT` timer are glue with no logic of their own.
- The diff page's `computeDiff` and `hashEditor` are not modelled, because they rely on jsonld and on hash/diff generators that are not part of this model.
- The sorting itself (`Array.prototype.sort`) is not modelled. Neither is re-sorting `allNodes` after `nodesSortBy`.
- Build tooling (`gulpfile.js`) is not modelled.
- These playground operations are not modelled, because they are unit and diagram plumbing around the external library:
  - `resetUnits`, `indexDomainUnits`, `resetDocuments` and `resetDiagram`;
  - `onDocumentLevelChange`, `expandDomainUnit` and `selectElementDocument`;
  - `onEditorSectionChange` and `onSelectedDiagramId`;
  - `doParse`'s call into the library, which becomes the `Parse` action and `OnParsed`.
- `Playground.ViewModel.OnParsed`: resetting the units, documents and diagram is not modelled. `resetDomainUnits` writes `expanded` into the same root objects that `referenceToDomainUnits` keeps, and that aliasing is not modelled: the model works on values.
- `ModelProxies.ModelProxy.TransitiveReferences`: the reference graph is fixed for the lifetime of a proxy. The source never invalidates the memo, so a memo that goes stale after `update` is not modelled.
- `Playground.PathTo`: values are finite trees, so the search always ends. The source keeps no visited set: on a cyclic object graph it recurses until the stack overflows, even when a chain exists under a later property. That case is not modelled.
- `Diff.StrLess`: strings are sequences of Unicode scalar values, while JavaScript's `<` compares UTF-16 code units. The two orders differ only for characters above U+FFFF, for example U+1F600 against U+FFFD.
- `Graph.MakeRect`: the width is 10 × the number of scalar values in the text. The source's `label.length` counts UTF-16 code units, so a label with a character above U+FFFF is wider there: "/😀" is 30 wide in the source and 20 in the model. `Graph.ProcessedNodeShape` states the model's width.
- `ModelProxies.DropLast`: it removes the last scalar value. The source's `substring(0, length - 1)` removes the last UTF-16 code unit, so for a location ending in a character above U+FFFF it leaves a lone surrogate that matches no location. There `ModelProxies.FirstMatch` and `ModelProxies.ModelProxy.NestedModel` may find a unit where the source finds none and throws, and `Playground.NestedLocation` activates a location the source would not produce.
- `Playground.ViewModel.UpdateDocumentModel`: the call to `documentModel.update` and its completion callback are not modelled. `ModelProxy` in src/main/model_proxy.ts has no `update` method, so the code it calls is not part of this model. As written, the callback tests `e != null`: it resets units, references and diagram only when an error is reported, and on success it calls `alert` with null.
- `Diff.Keys`: the length of a string under an array is its number of scalar values. JavaScript's `.length` counts UTF-16 code units, so it differs for characters above U+FFFF.
- JavaScript object keys are modelled in insertion order. This holds for the non-integer-like keys used here (locations, kinds, ids).
- `Graph.FilterCells`: the lookup table of `render` holds the ids of node cells only. Link cells' own JointJS ids are left out, because no link names another link as its end.
- `Visualization.ViewModel.HandleModelContentChange`: the source registers the handler unbound, so `this` is undefined inside it. The model treats it as bound.
- `Visualization.ViewModel.ResetUnits`: the `=== null` guard never matches the initial undefined model, so that branch is modelled as an error result.
- Validation: the open-api branch of `parsingFn` chains `.cath` (a typo) after `.then`. The success handler is registered first, so a successful open-api parse still runs it, and `Validation.ViewModel.OnParsed` with section `OpenApi` models it. Only the error handler is lost, and `parsingFn` itself throws at `.cath`; that throw is not modelled. The JSON re-wrapping of the api-model section is not modelled either, nor is the generated-text display for the open-api and api-model sections.
- `Validation.ViewModel.OnValidationReport`: the `pop`/`push` redraw of the shape list is not modelled, because it only triggers a redraw and leaves the list's contents as they were.
- `Diff.Keys`: a number or boolean property is not modelled, because `NodeDiff` holds only strings and arrays. An array on `b` under a string on `a` is modelled as the empty string.

=== FILE: Debounce.dfy ===
/**
 * The edit debounce shared by the playground and visualization view
 * models: every editor change bumps `changesFromLastUpdate` and sets a
 * dirty flag, then schedules a timer carrying the counter's value at that
 * moment; the timer reparses only if no later change has bumped the
 * counter, and the reparse first clears the flag and zeroes the counter.
 * Timers are modelled as explicit `Fire` events, not as real time.
 */
module Debounce {
  /** `changesFromLastUpdate` and `documentModelChanged` / `someModelChanged`. */
  datatype State = State(changes: nat, dirty: bool)

  const Initial := State(0, false)

  /** Pending changes always leave the flag set. */
  predicate Valid(s: State) {
    s.changes > 0 ==> s.dirty
  }

  /** An editor change; the new counter value is the timer's snapshot. */
  function Edit(s: State): State {
    State(s.changes + 1, true)
  }

  /** The guard at the top of the update: nothing happens unless the flag is set. */
  function Update(s: State): State {
    if s.dirty then Initial else s
  }

  /** Whether an update call goes on to reparse. */
  predicate Reparses(s: State) {
    s.dirty
  }

  /** A timer fires: it calls the update only if the counter still equals its snapshot. */
  function Fire(s: State, snapshot: nat): (State, bool) {
    if s.changes == snapshot then (Update(s), Reparses(s)) else (s, false)
  }

  /** Loading an initial file zeroes the counter and leaves the flag alone. */
  function Reset(s: State): State {
    State(0, s.dirty)
  }

  /** `k` changes in a row. */
  function Edits(s: State, k: nat): State {
    if k == 0 then s else Edit(Edits(s, k - 1))
  }

  /** Timers firing in order; the second component counts the reparses. */
  function FireAll(s: State, snapshots: seq<nat>): (State, nat)
    decreases |snapshots|
  {
    if |snapshots| == 0 then (s, 0)
    else
      var (s1, r) := Fire(s, snapshots[0]);
      var (s2, n) := FireAll(s1, snapshots[1..]);
      (s2, n + (if r then 1 else 0))
  }

  /** The snapshots of `k` changes made from counter value `c`. */
  function Snapshots(c: nat, k: nat): (r: seq<nat>)
    ensures |r| == k && forall i :: 0 <= i < k ==> r[i] == c + i + 1
  {
    if k == 0 then [] else Snapshots(c, k - 1) + [c + k]
  }

  /** Every event keeps the flag set while changes are pending. */
  lemma EventsKeepValid(s: State, snapshot: nat)
    requires Valid(s)
    ensures Valid(Edit(s)) && Valid(Update(s)) && Valid(Fire(s, snapshot).0) && Valid(Reset(s))
  {
  }

  /**
   * A timer that still matches the counter always finds the flag set,
   * because snapshots are at least 1: the update it calls does reparse.
   */
  lemma MatchingTimerReparses(s: State, snapshot: nat)
    requires Valid(s) && snapshot >= 1 && s.changes == snapshot
    ensures Fire(s, snapshot) == (Initial, true)
  {
  }

  /** An update with the flag clear changes nothing and does not reparse. */
  lemma CleanUpdateIsIdle(s: State)
    requires !s.dirty
    ensures Update(s) == s && !Reparses(s)
  {
  }

  /** A timer whose snapshot is outdated leaves the state alone. */
  lemma StaleTimerIsIdle(s: State, snapshot: nat)
    requires s.changes != snapshot
    ensures Fire(s, snapshot) == (s, false)
  {
  }

  lemma {:induction false} EditsCount(s: State, k: nat)
    ensures Edits(s, k).changes == s.changes + k
    ensures k > 0 ==> Edits(s, k).dirty
    ensures k == 0 ==> Edits(s, k) == s
  {
    if k > 0 {
      EditsCount(s, k - 1);
    }
  }

  lemma {:induction false} OutdatedTimersAreIdle(s: State, snapshots: seq<nat>)
    requires forall i :: 0 <= i < |snapshots| ==> snapshots[i] != s.changes
    ensures FireAll(s, snapshots) == (s, 0)
  {
    if |snapshots| > 0 {
      OutdatedTimersAreIdle(s, snapshots[1..]);
    }
  }

  /**
   * A burst of `k` changes followed by their `k` timers firing in order
   * reparses exactly once (on the last timer) and ends with a clean state.
   */
  lemma BurstReparsesOnce(s: State, k: nat)
    requires k >= 1
    ensures FireAll(Edits(s, k), Snapshots(s.changes, k)) == (Initial, 1)
  {
    var e := Edits(s, k);
    EditsCount(s, k);
    var snaps := Snapshots(s.changes, k);
    var early := snaps[..k - 1];
    assert snaps == early + [s.changes + k];
    OutdatedTimersAreIdle(e, early);
    FireAllSplit(e, early, s.changes + k);
  }

  lemma {:induction false} FireAllSplit(s: State, early: seq<nat>, last: nat)
    requires FireAll(s, early) == (s, 0)
    ensures FireAll(s, early + [last]) == (Fire(s, last).0, if Fire(s, last).1 then 1 else 0)
  {
    if |early| == 0 {
      assert early + [last] == [last];
    } else {
      var (s1, r) := Fire(s, early[0]);
      assert (early + [last])[1..] == early[1..] + [last];
      var (s2, n) := FireAll(s1, early[1..]);
      assert !r && s1 == s && n == 0;
      FireAllSplit(s, early[1..], last);
    }
  }

  /**
   * A timer left over from before an update can match a LATER change with
   * the same counter value and reparse before that change's own timer:
   * change (timer 1), update by a section switch, change again, then the
   * first timer fires.
   */
  lemma LeftoverTimerCanFireEarly()
    ensures var s := Edit(Update(Edit(Initial)));
      s.changes == 1 && Fire(s, 1) == (Initial, true)
  {
  }
}

=== FILE: Diff.dfy ===
/**
 * `src/diff/view_model.ts`: the node table of the diff view, its sort-key
 * toggle and the comparator handed to `Array.prototype.sort`.
 */
module Diff {
  import opened Wrappers

  /**
   * A property of a `NodeDiff` as the comparator sees it: a string, an
   * array (only its length matters), or null/undefined.
   */
  datatype Field = Text(s: string) | List(len: nat) | Missing

  /** A `NodeDiff`, by its properties. */
  type Node = map<string, Field>

  function Get(n: Node, property: string): Field {
    if property in n then n[property] else Missing
  }

  /**
   * JavaScript's `<` on strings: lexicographic, a proper prefix first.  The
   * model compares characters (Unicode scalar values) where JavaScript
   * compares UTF-16 code units; the two agree below U+10000.
   */
  predicate StrLess(a: string, b: string)
    decreases |a|
  {
    |b| > 0 && (|a| == 0 || a[0] < b[0] || (a[0] == b[0] && StrLess(a[1..], b[1..])))
  }

  lemma {:induction false} StrLessIrreflexive(a: string)
    ensures !StrLess(a, a)
    decreases |a|
  {
    if |a| > 0 {
      StrLessIrreflexive(a[1..]);
    }
  }

  lemma {:induction false} StrLessAsymmetric(a: string, b: string)
    ensures StrLess(a, b) ==> !StrLess(b, a)
    decreases |a|
  {
    if |a| > 0 && |b| > 0 && a[0] == b[0] {
      StrLessAsymmetric(a[1..], b[1..]);
    }
  }

  lemma {:induction false} StrLessTotal(a: string, b: string)
    ensures a == b || StrLess(a, b) || StrLess(b, a)
    decreases |a|
  {
    if |a| > 0 && |b| > 0 && a[0] == b[0] {
      StrLessTotal(a[1..], b[1..]);
      if a[1..] == b[1..] {
        assert a == [a[0]] + a[1..] && b == [b[0]] + b[1..];
      }
    }
  }

  lemma {:induction false} StrLessTransitive(a: string, b: string, c: string)
    requires StrLess(a, b) && StrLess(b, c)
    ensures StrLess(a, c)
    decreases |a|
  {
    if |a| > 0 && a[0] == b[0] && b[0] == c[0] {
      StrLessTransitive(a[1..], b[1..], c[1..]);
    }
  }

  /** The values `valA`/`valB` the comparator computes. */
  datatype Key = Num(n: int) | Str(s: string)

  predicate KeyLess(x: Key, y: Key) {
    match (x, y)
    case (Num(m), Num(n)) => m < n
    case (Str(s), Str(t)) => StrLess(s, t)
    case _ => false
  }

  /**
   * The keys of two nodes: strings when `a`'s property is a string (a
   * missing property on `b` counts as ""), lengths when it is an array,
   * and 0 for both otherwise; `None` when `b`'s property is missing under
   * an array on `a`, where reading its length throws.
   */
  function Keys(a: Node, b: Node, sortBy: string): Option<(Key, Key)> {
    var objA := Get(a, sortBy);
    var objB := Get(b, sortBy);
    match objA
    case Text(s) => Some((Str(s), Str(if objB.Text? then objB.s else "")))
    case List(n) =>
      if objB.Missing? then None
      else Some((Num(n), Num(if objB.List? then objB.len else |objB.s|)))
    case Missing => Some((Num(0), Num(0)))
  }

  /** The `sortedNodes` comparator; `None` when it throws. */
  function Compare(a: Node, b: Node, sortBy: string, sortDirection: int): Option<int> {
    match Keys(a, b, sortBy)
    case None => None
    case Some((valA, valB)) =>
      if KeyLess(valA, valB) then Some(sortDirection)
      else if KeyLess(valB, valA) then Some(-1 * sortDirection)
      else Some(0)
  }

  /**
   * With direction 1 the node with the SMALLER key sorts after the other
   * (a positive result), so the order is descending; with -1 it is
   * ascending.  Strings compare lexicographically, arrays by length.
   */
  lemma CompareOrder(a: Node, b: Node, sortBy: string)
    requires Get(a, sortBy).Text? && Get(b, sortBy).Text?
    ensures var s, t := Get(a, sortBy).s, Get(b, sortBy).s;
      && (Compare(a, b, sortBy, 1) == Some(1) <==> StrLess(s, t))
      && (Compare(a, b, sortBy, 1) == Some(-1) <==> StrLess(t, s))
      && (Compare(a, b, sortBy, 1) == Some(0) <==> s == t)
      && (Compare(a, b, sortBy, -1) == Some(-1) <==> StrLess(s, t))
  {
    var s, t := Get(a, sortBy).s, Get(b, sortBy).s;
    StrLessAsymmetric(s, t);
    StrLessTotal(s, t);
    StrLessIrreflexive(s);
  }

  lemma CompareLengths(a: Node, b: Node, sortBy: string, d: int)
    requires d == 1 || d == -1
    requires Get(a, sortBy).List? && Get(b, sortBy).List?
    ensures var m, n := Get(a, sortBy).len, Get(b, sortBy).len;
      && (Compare(a, b, sortBy, d) == Some(d) <==> m < n)
      && (Compare(a, b, sortBy, d) == Some(-d) <==> n < m)
      && (Compare(a, b, sortBy, d) == Some(0) <==> m == n)
  {
  }

  /** When both properties are strings, or both arrays, swapping the nodes negates the result. */
  lemma CompareAntisymmetric(a: Node, b: Node, sortBy: string, d: int)
    requires (Get(a, sortBy).Text? && Get(b, sortBy).Text?) || (Get(a, sortBy).List? && Get(b, sortBy).List?)
    ensures Compare(a, b, sortBy, d).Some? && Compare(b, a, sortBy, d).Some?
    ensures Compare(b, a, sortBy, d).value == -1 * Compare(a, b, sortBy, d).value
  {
    if Get(a, sortBy).Text? {
      StrLessAsymmetric(Get(a, sortBy).s, Get(b, sortBy).s);
    }
  }

  /** Reversing the direction negates every result. */
  lemma CompareFlip(a: Node, b: Node, sortBy: string, d: int)
    ensures Compare(a, b, sortBy, -d).Some? == Compare(a, b, sortBy, d).Some?
    ensures Compare(a, b, sortBy, d).Some? ==>
      Compare(a, b, sortBy, -d).value == -1 * Compare(a, b, sortBy, d).value
  {
  }

  /**
   * Mixed properties are not antisymmetric: a node lacking the property
   * ties with a node holding a string, but not the other way round; and an
   * array against a missing property throws in one order only.
   */
  lemma MixedFieldsAsymmetric()
    ensures var a: Node := map["id" := Missing];
      var b: Node := map["id" := Text("x")];
      Compare(a, b, "id", 1) == Some(0) && Compare(b, a, "id", 1) == Some(-1)
    ensures var a: Node := map["added" := List(2)];
      var b: Node := map[];
      Compare(a, b, "added", 1).None? && Compare(b, a, "added", 1) == Some(0)
  {
    var a: Node := map["id" := Missing];
    var b: Node := map["id" := Text("x")];
    assert StrLess("", "x");
    assert Get(b, "id") == Text("x");
  }

  /** `nodesSortBy(property)` on the pair (`sortBy`, `sortDirection`). */
  function Toggle(sortBy: string, sortDirection: int, property: string): (string, int) {
    if sortBy == property then (property, sortDirection * -1) else (property, 1)
  }

  /**
   * The direction stays 1 or -1.  Choosing the current sort column twice
   * restores the direction; choosing a new column twice leaves it at -1.
   */
  lemma ToggleProperties(sortBy: string, d: int, property: string)
    requires d == 1 || d == -1
    ensures var (s1, d1) := Toggle(sortBy, d, property);
      && s1 == property && (d1 == 1 || d1 == -1)
      && (sortBy != property ==> d1 == 1)
      && (sortBy == property ==> d1 == -d)
      && Toggle(s1, d1, property) == (property, if sortBy == property then d else -1)
  {
  }

  class ViewModel {
    var sortBy: string
    var sortDirection: int

    ghost predicate Valid()
      reads this
    {
      sortDirection == 1 || sortDirection == -1
    }

    constructor ()
      ensures Valid() && sortBy == "assertionsAdded" && sortDirection == 1
    {
      sortBy, sortDirection := "assertionsAdded", 1;
    }

    /** `nodesSortBy(property)`; re-sorting the table is not modelled. */
    method NodesSortBy(property: string)
      requires Valid()
      modifies this
      ensures Valid()
      ensures (sortBy, sortDirection) == Toggle(old(sortBy), old(sortDirection), property)
    {
      if sortBy == property {
        sortDirection := sortDirection * -1;
      } else {
        sortDirection := 1;
      }
      sortBy := property;
    }

    /** The comparator as `sortedNodes` uses it, with the current key and direction. */
    function Comparator(a: Node, b: Node): Option<int>
      reads this
    {
      Compare(a, b, sortBy, sortDirection)
    }
  }
}

=== FILE: Graph.dfy ===
/**
 * `src/main/graph.ts`: `PlaygroundGraph` turns a list of elements into
 * node rectangles (one per id) and parent-to-child links, and `render`
 * drops links whose ends are not among the cells.  Layout, the paper,
 * zooming and all DOM work are not modelled.
 */
module Graph {
  import opened Wrappers
  import opened Sequences
  import Utils

  const CharSize := 10
  const NodeHeight := 30
  const SelectedStrokeWidth := "3"
  const StrokeWidth := "1"
  const SelectedStrokeColor := "#748599"
  const NodeTextColor := "#fff"
  const DomainColor := "#115CD4"

  /** An entry of the list given to `process` (only the fields it reads). */
  datatype Element = Element(id: string, nodeLabel: Option<string>, parentId: Option<string>)

  /** The attributes of a node rectangle. */
  datatype Rect = Rect(
    nodeId: string, text: string, width: int, height: int,
    fill: string, stroke: string, strokeWidth: string, unit: Element)

  /** A parent-to-child link, by the ids of its end nodes. */
  datatype Link = Link(source: string, target: string)

  /** `if (element.parentId)`: present and not the empty string. */
  predicate HasParent(e: Element) {
    e.parentId.Some? && e.parentId.value != ""
  }

  /** `makeNode`'s rectangle for an element (kind 'domain'). */
  function MakeRect(e: Element, selectedId: string): Rect {
    var text := if e.nodeLabel.Some? then e.nodeLabel.value else Utils.Label(e.id);
    Rect(e.id, text, |text| * CharSize, NodeHeight, DomainColor,
         if e.id == selectedId then SelectedStrokeColor else NodeTextColor,
         if e.id == selectedId then SelectedStrokeWidth else StrokeWidth, e)
  }

  /** What `process` builds: `nodes` (with its keys in insertion order) and `links`. */
  datatype Built = Built(order: seq<string>, nodes: map<string, Rect>, links: seq<Link>)

  ghost predicate Indexed(b: Built) {
    Distinct(b.order) && forall k :: k in b.nodes <==> k in b.order
  }

  /** One turn of the `forEach` in `process`: `makeNode`, then `makeLink` if there is a parent. */
  function Step(b: Built, e: Element, selectedId: string): Built {
    var order := if e.id in b.nodes then b.order else b.order + [e.id];
    var nodes := if e.id in b.nodes then b.nodes else b.nodes[e.id := MakeRect(e, selectedId)];
    var links := if HasParent(e) && e.parentId.value in nodes && e.id in nodes
                 then b.links + [Link(e.parentId.value, e.id)] else b.links;
    Built(order, nodes, links)
  }

  /** `process(elements)`, starting from no nodes and no links. */
  function Build(es: seq<Element>, selectedId: string): (b: Built)
    ensures Indexed(b)
    ensures forall k :: k in b.nodes ==> b.nodes[k].nodeId == k
  {
    if |es| == 0 then Built([], map[], [])
    else Step(Build(es[..|es| - 1], selectedId), es[|es| - 1], selectedId)
  }

  // ---------------------------------------------------------------------
  // Reference definitions, independent of the step-by-step construction.
  // ---------------------------------------------------------------------

  function Ids(es: seq<Element>): set<string> {
    set i | 0 <= i < |es| :: es[i].id
  }

  /** The index of the first element with id `id`. */
  ghost predicate IsFirstWith(es: seq<Element>, id: string, i: nat) {
    i < |es| && es[i].id == id && forall j :: 0 <= j < i ==> es[j].id != id
  }

  /** The links `process` is meant to draw: in input order, when the parent id occurs up to that element. */
  function ExpectedLinks(es: seq<Element>): seq<Link> {
    if |es| == 0 then []
    else
      var e := es[|es| - 1];
      ExpectedLinks(es[..|es| - 1]) +
        (if HasParent(e) && e.parentId.value in Ids(es) then [Link(e.parentId.value, e.id)] else [])
  }

  /** How many elements name a parent. */
  function ParentCount(es: seq<Element>): nat {
    if |es| == 0 then 0
    else ParentCount(es[..|es| - 1]) + (if HasParent(es[|es| - 1]) then 1 else 0)
  }

  lemma IdsSnoc(es: seq<Element>)
    requires |es| > 0
    ensures Ids(es) == Ids(es[..|es| - 1]) + {es[|es| - 1].id}
  {
    var n := |es| - 1;
    var pre := es[..n];
    forall x | x in Ids(es) ensures x in Ids(pre) + {es[n].id} {
      var i :| 0 <= i < |es| && es[i].id == x;
      if i < n { assert pre[i] == es[i]; }
    }
    forall x | x in Ids(pre) ensures x in Ids(es) {
      var i :| 0 <= i < |pre| && pre[i].id == x;
      assert es[i] == pre[i];
    }
  }

  lemma {:induction false} BuildKeys(es: seq<Element>, selectedId: string)
    ensures Build(es, selectedId).nodes.Keys == Ids(es)
  {
    if |es| > 0 {
      BuildKeys(es[..|es| - 1], selectedId);
      IdsSnoc(es);
    }
  }

  /** The elements' ids, in list order. */
  function IdList(es: seq<Element>): (r: seq<string>)
    ensures |r| == |es| && forall i :: 0 <= i < |es| ==> r[i] == es[i].id
  {
    seq(|es|, i requires 0 <= i < |es| => es[i].id)
  }

  /** The node keys are listed in insertion order: each id once, where it first occurs. */
  lemma {:induction false} BuildOrder(es: seq<Element>, selectedId: string)
    ensures Build(es, selectedId).order == FirstOccurrences(IdList(es))
  {
    if |es| > 0 {
      var n := |es| - 1;
      BuildOrder(es[..n], selectedId);
      assert IdList(es)[..n] == IdList(es[..n]);
    }
  }

  lemma {:induction false} BuildNodesAreFirstElements(es: seq<Element>, selectedId: string)
    ensures var b := Build(es, selectedId);
      forall id :: id in b.nodes ==>
        exists i: nat :: IsFirstWith(es, id, i) && b.nodes[id] == MakeRect(es[i], selectedId)
  {
    if |es| > 0 {
      var n := |es| - 1;
      var pre := es[..n];
      BuildNodesAreFirstElements(pre, selectedId);
      BuildKeys(pre, selectedId);
      var b := Build(es, selectedId);
      var p := Build(pre, selectedId);
      forall id | id in b.nodes
        ensures exists i: nat :: IsFirstWith(es, id, i) && b.nodes[id] == MakeRect(es[i], selectedId)
      {
        if id in p.nodes {
          var i: nat :| IsFirstWith(pre, id, i) && p.nodes[id] == MakeRect(pre[i], selectedId);
          FirstWithExtends(es, id, i);
        } else {
          FirstWithNew(es, id);
        }
      }
    }
  }

  lemma FirstWithExtends(es: seq<Element>, id: string, i: nat)
    requires |es| > 0 && IsFirstWith(es[..|es| - 1], id, i)
    ensures IsFirstWith(es, id, i) && es[i] == es[..|es| - 1][i]
  {
    assert es[i] == es[..|es| - 1][i];
  }

  lemma FirstWithNew(es: seq<Element>, id: string)
    requires |es| > 0 && id == es[|es| - 1].id && id !in Ids(es[..|es| - 1])
    ensures IsFirstWith(es, id, |es| - 1)
  {
    var pre := es[..|es| - 1];
    forall j | 0 <= j < |pre| ensures es[j].id != id {
      assert es[j] == pre[j];
    }
  }

  lemma {:induction false} BuildLinksAreExpected(es: seq<Element>, selectedId: string)
    ensures Build(es, selectedId).links == ExpectedLinks(es)
  {
    if |es| > 0 {
      var n := |es| - 1;
      BuildLinksAreExpected(es[..n], selectedId);
      BuildKeys(es, selectedId);
    }
  }

  lemma {:induction false} ExpectedLinksBound(es: seq<Element>)
    ensures |ExpectedLinks(es)| <= ParentCount(es)
  {
    if |es| > 0 {
      ExpectedLinksBound(es[..|es| - 1]);
    }
  }

  /**
   * At most one node per element id, built from the FIRST element with
   * that id; links appear in input order, one for each element whose
   * parent id occurs at or before it, so no more links than elements that
   * name a parent.
   */
  lemma ProcessNodesAndLinks(es: seq<Element>, selectedId: string)
    ensures var b := Build(es, selectedId);
      && b.nodes.Keys == Ids(es)
      && (forall id :: id in b.nodes ==>
            exists i: nat :: IsFirstWith(es, id, i) && b.nodes[id] == MakeRect(es[i], selectedId))
      && b.links == ExpectedLinks(es)
      && |b.links| <= ParentCount(es)
  {
    BuildKeys(es, selectedId);
    BuildNodesAreFirstElements(es, selectedId);
    BuildLinksAreExpected(es, selectedId);
    ExpectedLinksBound(es);
  }

  /**
   * Every node's text is the element's label if it has one, else the label
   * of its id; it is 10 pixels wide per character and 30 high; exactly the
   * selected node gets stroke width '3'.
   */
  lemma ProcessedNodeShape(es: seq<Element>, selectedId: string, id: string)
    requires id in Build(es, selectedId).nodes
    ensures var r := Build(es, selectedId).nodes[id];
      && r.nodeId == id
      && r.text == (if r.unit.nodeLabel.Some? then r.unit.nodeLabel.value else Utils.Label(id))
      && r.width == CharSize * |r.text| && r.height == NodeHeight
      && (r.strokeWidth == SelectedStrokeWidth <==> id == selectedId)
      && (r.strokeWidth == StrokeWidth <==> id != selectedId)
  {
    BuildNodesAreFirstElements(es, selectedId);
    var i: nat :| IsFirstWith(es, id, i) && Build(es, selectedId).nodes[id] == MakeRect(es[i], selectedId);
  }

  /** A child listed before its parent gets no link. */
  lemma ChildBeforeParentGetsNoLink()
    ensures var es := [Element("child", None, Some("parent")), Element("parent", None, None)];
      Build(es, "").links == [] && Build(es, "").nodes.Keys == {"child", "parent"}
  {
    var es := [Element("child", None, Some("parent")), Element("parent", None, None)];
    assert es[..1] == [es[0]] && es[..1][..0] == [];
    ProcessNodesAndLinks(es, "");
    assert Ids(es) == {"child", "parent"} by {
      assert es[0].id == "child" && es[1].id == "parent";
    }
  }

  // ---------------------------------------------------------------------
  // The cell filter inside `render`.
  // ---------------------------------------------------------------------

  /** A JointJS cell: a node rectangle or a link. */
  datatype Cell = NodeCell(rect: Rect) | LinkCell(link: Link)

  /** The ids of the node cells among `cells`. */
  function CellIds(cells: seq<Cell>): set<string> {
    set i | 0 <= i < |cells| && cells[i].NodeCell? :: cells[i].rect.nodeId
  }

  /** Keep a cell if it is not a link, or if both its ends are among `ids`. */
  predicate Kept(c: Cell, ids: set<string>) {
    c.NodeCell? || (c.link.source in ids && c.link.target in ids)
  }

  /** `cells.filter(...)`, in order. */
  function FilterCells(cells: seq<Cell>, ids: set<string>): (r: seq<Cell>)
    ensures forall c :: c in r <==> c in cells && Kept(c, ids)
    ensures |r| <= |cells|
  {
    if |cells| == 0 then []
    else (if Kept(cells[0], ids) then [cells[0]] else []) + FilterCells(cells[1..], ids)
  }

  /** A single cell is kept, or dropped, on its own. */
  lemma FilterOne(c: Cell, ids: set<string>)
    ensures FilterCells([c], ids) == if Kept(c, ids) then [c] else []
  {
    assert [c][1..] == [];
  }

  /**
   * Filtering a concatenation filters each part and concatenates the
   * results; with `FilterOne`, the filter keeps the order and the
   * multiplicity of the kept cells.
   */
  lemma {:induction false} FilterAppend(a: seq<Cell>, b: seq<Cell>, ids: set<string>)
    ensures FilterCells(a + b, ids) == FilterCells(a, ids) + FilterCells(b, ids)
  {
    if |a| == 0 {
      assert a + b == b;
    } else {
      assert (a + b)[0] == a[0];
      assert (a + b)[1..] == a[1..] + b;
      FilterAppend(a[1..], b, ids);
      var head := if Kept(a[0], ids) then [a[0]] else [];
      assert FilterCells(a + b, ids) == head + (FilterCells(a[1..], ids) + FilterCells(b, ids));
    }
  }

  /** The render filter: every non-link cell is kept, and a link only when both ends are cells. */
  function RenderCells(cells: seq<Cell>): seq<Cell> {
    FilterCells(cells, CellIds(cells))
  }

  /** The cells `render` collects: nodes in key order, then links. */
  function CellsOf(b: Built): seq<Cell>
    requires forall k :: k in b.order ==> k in b.nodes
  {
    seq(|b.order|, i requires 0 <= i < |b.order| => NodeCell(b.nodes[b.order[i]]))
      + seq(|b.links|, i requires 0 <= i < |b.links| => LinkCell(b.links[i]))
  }

  lemma {:induction false} FilterKeepsAll(cells: seq<Cell>, ids: set<string>)
    requires forall i :: 0 <= i < |cells| ==> Kept(cells[i], ids)
    ensures FilterCells(cells, ids) == cells
  {
    if |cells| > 0 {
      FilterKeepsAll(cells[1..], ids);
    }
  }

  /** Both ends of every link `process` draws are nodes, so `render` drops nothing it builds. */
  lemma RenderKeepsProcessedCells(es: seq<Element>, selectedId: string)
    ensures var b := Build(es, selectedId);
      RenderCells(CellsOf(b)) == CellsOf(b)
  {
    var b := Build(es, selectedId);
    LinksEndAtNodes(es, selectedId);
    var cells := CellsOf(b);
    forall i | 0 <= i < |cells| ensures Kept(cells[i], CellIds(cells)) {
      if i >= |b.order| {
        var l := b.links[i - |b.order|];
        var s :| 0 <= s < |b.order| && b.order[s] == l.source;
        var t :| 0 <= t < |b.order| && b.order[t] == l.target;
        assert cells[s].rect.nodeId == l.source;
        assert cells[t].rect.nodeId == l.target;
      }
    }
    FilterKeepsAll(cells, CellIds(cells));
  }

  lemma {:induction false} LinksEndAtNodes(es: seq<Element>, selectedId: string)
    ensures var b := Build(es, selectedId);
      forall l :: l in b.links ==> l.source in b.nodes && l.target in b.nodes
  {
    if |es| > 0 {
      LinksEndAtNodes(es[..|es| - 1], selectedId);
    }
  }

  // ---------------------------------------------------------------------
  // The graph object.
  // ---------------------------------------------------------------------

  class PlaygroundGraph {
    const selectedId: string
    var order: seq<string>
    var nodes: map<string, Rect>
    var links: seq<Link>
    var elements: seq<Element>

    ghost predicate Valid()
      reads this
    {
      Indexed(Built(order, nodes, links))
    }

    constructor (selected: string)
      ensures Valid() && selectedId == selected
      ensures order == [] && nodes == map[] && links == [] && elements == []
    {
      selectedId := selected;
      order, nodes, links, elements := [], map[], [], [];
    }

    /**
     * `process(elements)`: the previous nodes and links are discarded, so
     * the outcome is a function of the element list alone.
     */
    method Process(es: seq<Element>)
      modifies this
      ensures Valid()
      ensures Built(order, nodes, links) == Build(es, selectedId) && elements == es
    {
      order, nodes, links := [], map[], [];
      elements := es;
      for i := 0 to |es|
        invariant elements == es
        invariant Built(order, nodes, links) == Build(es[..i], selectedId)
      {
        assert es[..i + 1][..i] == es[..i];
        var e := es[i];
        MakeNode(e);
        if HasParent(e) {
          MakeLink(e.parentId.value, e.id);
        }
      }
      assert es[..|es|] == es;
    }

    /** `makeNode`: a node is created only for an id that has none yet. */
    method MakeNode(e: Element)
      requires Valid()
      modifies this`order, this`nodes
      ensures Valid()
      ensures e.id in old(nodes) ==> order == old(order) && nodes == old(nodes)
      ensures e.id !in old(nodes) ==>
        order == old(order) + [e.id] && nodes == old(nodes)[e.id := MakeRect(e, selectedId)]
    {
      if e.id !in nodes {
        nodes := nodes[e.id := MakeRect(e, selectedId)];
        order := order + [e.id];
      }
    }

    /** `makeLink`: a link is appended only when both ends already have nodes. */
    method MakeLink(sourceId: string, targetId: string)
      requires Valid()
      modifies this`links
      ensures Valid()
      ensures links == old(links) +
        (if sourceId in nodes && targetId in nodes then [Link(sourceId, targetId)] else [])
    {
      if sourceId in nodes && targetId in nodes {
        links := links + [Link(sourceId, targetId)];
      }
    }
  }
}

=== FILE: ModelProxies.dfy ===
/**
 * `src/main/model_proxy.ts`: the proxy around a parsed unit, its memoised
 * transitive-reference walk, and the `references`/`nestedModel` queries
 * built on it.
 *
 * The external library's units form a reference graph that may be cyclic.
 * It is modelled as a sequence of units addressed by index; a unit's
 * `references()` is its list of referenced indices.
 */
module ModelProxies {
  import opened Wrappers
  import opened Sequences

  /** A unit as the external library exposes it: `location` and `references()`. */
  datatype Unit = Unit(location: string, refs: seq<nat>)

  type Graph = seq<Unit>

  /** Every reference points at a unit of the graph. */
  predicate WellFormed(g: Graph) {
    forall u, k :: 0 <= u < |g| && 0 <= k < |g[u].refs| ==> g[u].refs[k] < |g|
  }

  /** Every location some unit of the graph has. */
  function Locations(g: Graph): set<string> {
    set u | 0 <= u < |g| :: g[u].location
  }

  /** The locations of a list of units, in order (`.map(u => u.location)`). */
  function LocationsOf(g: Graph, us: seq<nat>): (r: seq<string>)
    requires forall i :: 0 <= i < |us| ==> us[i] < |g|
    ensures |r| == |us| && forall i :: 0 <= i < |us| ==> r[i] == g[us[i]].location
  {
    seq(|us|, i requires 0 <= i < |us| => g[us[i]].location)
  }

  // ---------------------------------------------------------------------
  // The walk of `transitiveReferences`, as a specification.
  // ---------------------------------------------------------------------

  /**
   * The walk's state: the accumulator `refsAcc` (a JavaScript object, so
   * its keys are kept in first-insertion order in `keys`) and `pending`.
   */
  datatype Walk = Walk(keys: seq<string>, vals: map<string, nat>, pending: seq<nat>)

  /** `keys` lists the accumulator's keys, each once. */
  ghost predicate Consistent(w: Walk) {
    && Distinct(w.keys)
    && (forall k :: k in w.vals <==> k in w.keys)
  }

  /** Every unit in the state belongs to `g`, and is stored under its own location. */
  ghost predicate Inside(g: Graph, w: Walk) {
    && (forall k :: k in w.vals ==> w.vals[k] < |g| && g[w.vals[k]].location == k)
    && (forall i :: 0 <= i < |w.pending| ==> w.pending[i] < |g|)
  }

  ghost predicate Good(g: Graph, w: Walk) {
    WellFormed(g) && Consistent(w) && Inside(g, w)
  }

  /** `refsAcc[loc] = u`: a new key goes last, an existing key keeps its place. */
  function Put(w: Walk, loc: string, u: nat): Walk {
    Walk(if loc in w.vals then w.keys else w.keys + [loc], w.vals[loc := u], w.pending)
  }

  /** The first `forEach` (line 52), over the root's direct references. */
  function Seed(g: Graph, direct: seq<nat>): (w: Walk)
    requires WellFormed(g)
    requires forall i :: 0 <= i < |direct| ==> direct[i] < |g|
    ensures Good(g, w) && w.pending == []
  {
    if |direct| == 0 then Walk([], map[], [])
    else
      var u := direct[|direct| - 1];
      Put(Seed(g, direct[..|direct| - 1]), g[u].location, u)
  }

  /**
   * The inner `forEach` (lines 56-61) over `next.references()`: a reference
   * whose location is new is recorded and ITS references are pushed.
   */
  function Visit(g: Graph, w: Walk, refs: seq<nat>): (r: Walk)
    requires Good(g, w)
    requires forall i :: 0 <= i < |refs| ==> refs[i] < |g|
    decreases |refs|
    ensures Good(g, r)
    ensures w.vals.Keys <= r.vals.Keys
    ensures r.vals.Keys == w.vals.Keys ==> r.pending == w.pending
    ensures w.keys <= r.keys
    ensures forall k :: k in w.vals ==> r.vals[k] == w.vals[k]
  {
    if |refs| == 0 then w
    else
      var u := refs[0];
      var loc := g[u].location;
      var w' := if loc !in w.vals then Walk(w.keys + [loc], w.vals[loc := u], w.pending + g[u].refs) else w;
      Visit(g, w', refs[1..])
  }

  /** Shrinking the part of a finite set that is still unvisited. */
  lemma UnvisitedShrinks(all: set<string>, before: set<string>, after: set<string>)
    requires before < after <= all
    ensures |all - after| < |all - before|
  {
    var x :| x in after && x !in before;
    var d := (all - before) - (all - after);
    assert x in d;
    assert all - before == (all - after) + d;
    assert (all - after) * d == {};
  }

  lemma KeysWithinLocations(g: Graph, w: Walk)
    requires Good(g, w)
    ensures w.vals.Keys <= Locations(g)
  {
    forall k | k in w.vals ensures k in Locations(g) {
      var u := w.vals[k];
      assert g[u].location == k;
    }
  }

  /** A visit either records a new location or leaves the stack as it was. */
  lemma VisitProgress(g: Graph, w: Walk, refs: seq<nat>)
    requires Good(g, w)
    requires forall i :: 0 <= i < |refs| ==> refs[i] < |g|
    ensures var r := Visit(g, w, refs);
      || |Locations(g) - r.vals.Keys| < |Locations(g) - w.vals.Keys|
      || (r.vals.Keys == w.vals.Keys && r.pending == w.pending)
  {
    var r := Visit(g, w, refs);
    KeysWithinLocations(g, r);
    if r.vals.Keys != w.vals.Keys {
      UnvisitedShrinks(Locations(g), w.vals.Keys, r.vals.Keys);
    }
  }

  /**
   * The `while` loop (lines 54-62): pop the last pending unit and visit its
   * references.  Work is pushed only when a location is seen for the first
   * time, so the number of unseen locations, then the stack length, drops.
   */
  function Drain(g: Graph, w: Walk): (r: Walk)
    requires Good(g, w)
    decreases |Locations(g) - w.vals.Keys|, |w.pending|
    ensures Good(g, r) && r.pending == []
    ensures w.vals.Keys <= r.vals.Keys
    ensures w.keys <= r.keys
    ensures forall k :: k in w.vals ==> r.vals[k] == w.vals[k]
  {
    if |w.pending| == 0 then w
    else
      var next := w.pending[|w.pending| - 1];
      var w1 := w.(pending := w.pending[..|w.pending| - 1]);
      var w2 := Visit(g, w1, g[next].refs);
      VisitProgress(g, w1, g[next].refs);
      Drain(g, w2)
  }

  /** The final `for ... in refsAcc` (lines 63-66): the units in key order. */
  function Values(w: Walk): (r: seq<nat>)
    requires forall k :: k in w.keys ==> k in w.vals
    ensures |r| == |w.keys|
  {
    seq(|w.keys|, i requires 0 <= i < |w.keys| => w.vals[w.keys[i]])
  }

  /** The walk from the root's direct references, before the values are read out. */
  function FinalWalk(g: Graph, root: nat): (w: Walk)
    requires WellFormed(g) && root < |g|
    ensures Good(g, w)
  {
    var direct := g[root].refs;
    Drain(g, Seed(g, direct).(pending := direct))
  }

  /** What `transitiveReferences()` computes the first time it is called. */
  function TransitiveRefs(g: Graph, root: nat): (r: seq<nat>)
    requires WellFormed(g) && root < |g|
    ensures forall i :: 0 <= i < |r| ==> r[i] < |g|
  {
    Values(FinalWalk(g, root))
  }

  // ---------------------------------------------------------------------
  // Properties of the walk.
  // ---------------------------------------------------------------------

  /** A path along `references()` edges. */
  ghost predicate IsPath(g: Graph, p: seq<nat>) {
    && |p| >= 1
    && (forall i :: 0 <= i < |p| ==> p[i] < |g|)
    && (forall i :: 0 <= i < |p| - 1 ==> Step(g, p, i))
  }

  /** The path's `i`-th edge follows a reference. */
  ghost predicate Step(g: Graph, p: seq<nat>, i: nat)
    requires i + 1 < |p| && p[i] < |g|
  {
    p[i + 1] in g[p[i]].refs
  }

  /** `u` can be reached from `root` by following one reference or more. */
  ghost predicate Reachable(g: Graph, root: nat, u: nat) {
    exists p :: IsPath(g, p) && |p| >= 2 && p[0] == root && p[|p| - 1] == u
  }

  lemma ReachableStep(g: Graph, root: nat, v: nat, u: nat)
    requires root < |g| && v < |g| && u < |g|
    requires v == root || Reachable(g, root, v)
    requires u in g[v].refs
    ensures Reachable(g, root, u)
  {
    if v == root {
      assert IsPath(g, [root, u]);
    } else {
      var p :| IsPath(g, p) && |p| >= 2 && p[0] == root && p[|p| - 1] == v;
      var q := p + [u];
      forall i | 0 <= i < |q| - 1 ensures Step(g, q, i) {
        if i < |p| - 1 {
          assert Step(g, p, i);
        }
      }
      assert IsPath(g, q);
    }
  }

  /** Everything recorded or pending is reachable from the root. */
  ghost predicate Sound(g: Graph, root: nat, w: Walk) {
    && (forall k :: k in w.vals ==> Reachable(g, root, w.vals[k]))
    && (forall i :: 0 <= i < |w.pending| ==> Reachable(g, root, w.pending[i]))
  }

  /** Recording a reachable unit keeps the state sound. */
  lemma PutSound(g: Graph, root: nat, w: Walk, loc: string, u: nat)
    requires Sound(g, root, w) && Reachable(g, root, u)
    ensures Sound(g, root, Put(w, loc, u))
  {
    forall k | k in Put(w, loc, u).vals ensures Reachable(g, root, Put(w, loc, u).vals[k]) {
      if k != loc {
        assert Put(w, loc, u).vals[k] == w.vals[k];
      }
    }
  }

  lemma {:induction false} SeedSound(g: Graph, root: nat, direct: seq<nat>)
    requires WellFormed(g) && root < |g|
    requires direct <= g[root].refs
    ensures Sound(g, root, Seed(g, direct))
  {
    if |direct| > 0 {
      var n := |direct| - 1;
      assert direct[..n] <= g[root].refs;
      SeedSound(g, root, direct[..n]);
      assert direct[n] in g[root].refs;
      ReachableStep(g, root, root, direct[n]);
      PutSound(g, root, Seed(g, direct[..n]), g[direct[n]].location, direct[n]);
    }
  }

  /** Every direct reference's location is a key of the seeded accumulator. */
  lemma {:induction false} SeedCovers(g: Graph, direct: seq<nat>)
    requires WellFormed(g)
    requires forall i :: 0 <= i < |direct| ==> direct[i] < |g|
    ensures forall i :: 0 <= i < |direct| ==> g[direct[i]].location in Seed(g, direct).vals
  {
    if |direct| > 0 {
      var n := |direct| - 1;
      SeedCovers(g, direct[..n]);
      forall i | 0 <= i < |direct| ensures g[direct[i]].location in Seed(g, direct).vals {
        if i < n {
          assert direct[i] == direct[..n][i];
        }
      }
    }
  }



  /** Recording a reachable unit under a new location, and stacking its references, keeps the state sound. */
  lemma RecordSound(g: Graph, root: nat, w: Walk, u: nat)
    requires Good(g, w) && root < |g| && u < |g| && g[u].location !in w.vals
    requires Sound(g, root, w) && Reachable(g, root, u)
    ensures var loc := g[u].location;
      && Good(g, Walk(w.keys + [loc], w.vals[loc := u], w.pending + g[u].refs))
      && Sound(g, root, Walk(w.keys + [loc], w.vals[loc := u], w.pending + g[u].refs))
  {
    var loc := g[u].location;
    var pending := w.pending + g[u].refs;
    forall i | 0 <= i < |pending| ensures Reachable(g, root, pending[i]) {
      if i >= |w.pending| {
        assert pending[i] == g[u].refs[i - |w.pending|];
        ReachableStep(g, root, u, pending[i]);
      }
    }
  }

  lemma {:induction false} VisitSound(g: Graph, root: nat, w: Walk, v: nat, refs: seq<nat>)
    requires Good(g, w) && root < |g| && v < |g|
    requires forall i :: 0 <= i < |refs| ==> refs[i] < |g|
    requires Sound(g, root, w)
    requires v == root || Reachable(g, root, v)
    requires forall i :: 0 <= i < |refs| ==> refs[i] in g[v].refs
    decreases |refs|
    ensures Sound(g, root, Visit(g, w, refs))
  {
    if |refs| > 0 {
      ReachableStep(g, root, v, refs[0]);
      if g[refs[0]].location !in w.vals {
        RecordSound(g, root, w, refs[0]);
        VisitSound(g, root, Walk(w.keys + [g[refs[0]].location], w.vals[g[refs[0]].location := refs[0]], w.pending + g[refs[0]].refs), v, refs[1..]);
      } else {
        VisitSound(g, root, w, v, refs[1..]);
      }
    }
  }

  /** Popping the stack keeps the state sound, and the popped unit is reachable. */
  lemma PopSound(g: Graph, root: nat, w: Walk)
    requires Sound(g, root, w) && |w.pending| > 0
    ensures Sound(g, root, w.(pending := w.pending[..|w.pending| - 1]))
    ensures Reachable(g, root, w.pending[|w.pending| - 1])
  {
    assert forall i :: 0 <= i < |w.pending| - 1 ==> w.pending[..|w.pending| - 1][i] == w.pending[i];
  }

  lemma {:induction false} DrainSound(g: Graph, root: nat, w: Walk)
    requires Good(g, w) && root < |g|
    requires Sound(g, root, w)
    decreases |Locations(g) - w.vals.Keys|, |w.pending|
    ensures Sound(g, root, Drain(g, w))
  {
    if |w.pending| > 0 {
      DrainUnfold(g, w);
      PopSound(g, root, w);
      VisitSound(g, root, w.(pending := w.pending[..|w.pending| - 1]), w.pending[|w.pending| - 1], g[w.pending[|w.pending| - 1]].refs);
      VisitProgress(g, w.(pending := w.pending[..|w.pending| - 1]), g[w.pending[|w.pending| - 1]].refs);
      DrainSound(g, root, Visit(g, w.(pending := w.pending[..|w.pending| - 1]), g[w.pending[|w.pending| - 1]].refs));
    }
  }


  /**
   * Every unit in the result is reachable from the root along
   * `references()`.  (The converse is not promised: see
   * `WalkSkipsReferencesOfNewUnits`.)
   */
  lemma TransitiveRefsReachable(g: Graph, root: nat)
    requires WellFormed(g) && root < |g|
    ensures forall i :: 0 <= i < |TransitiveRefs(g, root)| ==> Reachable(g, root, TransitiveRefs(g, root)[i])
  {
    var direct := g[root].refs;
    SeedSound(g, root, direct);
    var w0 := Seed(g, direct).(pending := direct);
    forall i | 0 <= i < |direct| ensures Reachable(g, root, direct[i]) {
      ReachableStep(g, root, root, direct[i]);
    }
    DrainSound(g, root, w0);
  }

  /** At most one unit per location in the result. */
  lemma TransitiveRefsDistinctLocations(g: Graph, root: nat)
    requires WellFormed(g) && root < |g|
    ensures Distinct(LocationsOf(g, TransitiveRefs(g, root)))
  {
    var w := FinalWalk(g, root);
    var r := TransitiveRefs(g, root);
    forall i | 0 <= i < |r| ensures g[r[i]].location == w.keys[i] {
      assert w.keys[i] in w.vals;
    }
  }

  /** The last index of `direct` whose unit has location `loc`. */
  ghost predicate IsLastWith(g: Graph, direct: seq<nat>, loc: string, i: nat)
    requires forall j :: 0 <= j < |direct| ==> direct[j] < |g|
  {
    i < |direct| && g[direct[i]].location == loc &&
    forall j :: i < j < |direct| ==> g[direct[j]].location != loc
  }

  lemma {:induction false} SeedKeysOrder(g: Graph, direct: seq<nat>)
    requires WellFormed(g)
    requires forall i :: 0 <= i < |direct| ==> direct[i] < |g|
    ensures Seed(g, direct).keys == FirstOccurrences(LocationsOf(g, direct))
  {
    if |direct| > 0 {
      var n := |direct| - 1;
      SeedKeysOrder(g, direct[..n]);
      assert LocationsOf(g, direct)[..n] == LocationsOf(g, direct[..n]);
    }
  }

  lemma {:induction false} SeedOrder(g: Graph, direct: seq<nat>)
    requires WellFormed(g)
    requires forall i :: 0 <= i < |direct| ==> direct[i] < |g|
    ensures Seed(g, direct).keys == FirstOccurrences(LocationsOf(g, direct))
    ensures forall k :: k in Seed(g, direct).vals ==>
      exists i: nat :: IsLastWith(g, direct, k, i) && Seed(g, direct).vals[k] == direct[i]
  {
    SeedKeysOrder(g, direct);
    SeedValuesLast(g, direct);
  }

  lemma {:induction false} SeedValuesLast(g: Graph, direct: seq<nat>)
    requires WellFormed(g)
    requires forall i :: 0 <= i < |direct| ==> direct[i] < |g|
    ensures forall k :: k in Seed(g, direct).vals ==>
      exists i: nat :: IsLastWith(g, direct, k, i) && Seed(g, direct).vals[k] == direct[i]
  {
    if |direct| > 0 {
      var n := |direct| - 1;
      var pre := direct[..n];
      SeedValuesLast(g, pre);
      var w := Seed(g, direct);
      var p := Seed(g, pre);
      assert w == Put(p, g[direct[n]].location, direct[n]);
      forall k | k in w.vals
        ensures exists i: nat :: IsLastWith(g, direct, k, i) && w.vals[k] == direct[i]
      {
        if k == g[direct[n]].location {
          assert IsLastWith(g, direct, k, n);
        } else {
          assert k in p.vals && w.vals[k] == p.vals[k];
          var i: nat :| IsLastWith(g, pre, k, i) && p.vals[k] == pre[i];
          LastWithExtends(g, direct, k, i);
        }
      }
    }
  }

  lemma LastWithExtends(g: Graph, direct: seq<nat>, loc: string, i: nat)
    requires forall j :: 0 <= j < |direct| ==> direct[j] < |g|
    requires |direct| > 0 && g[direct[|direct| - 1]].location != loc
    requires IsLastWith(g, direct[..|direct| - 1], loc, i)
    ensures IsLastWith(g, direct, loc, i) && direct[i] == direct[..|direct| - 1][i]
  {
    var pre := direct[..|direct| - 1];
    forall j | i < j < |direct| ensures g[direct[j]].location != loc {
      if j < |pre| {
        assert direct[j] == pre[j];
      }
    }
  }

  /** The worklist loop only appends keys and never overwrites a value. */
  lemma FinalExtendsSeed(g: Graph, root: nat)
    requires WellFormed(g) && root < |g|
    ensures var s := Seed(g, g[root].refs);
      var w := FinalWalk(g, root);
      && s.keys <= w.keys
      && (forall k :: k in s.vals ==> k in w.vals && w.vals[k] == s.vals[k])
  {
  }

  /**
   * First-insertion order: the result starts with the direct references'
   * locations, each once, in the order they first occur; a location shared
   * by several direct references holds the LAST of them (the seeding loop
   * overwrites).
   */
  lemma TransitiveRefsStartWithDirect(g: Graph, root: nat)
    requires WellFormed(g) && root < |g|
    ensures var direct := g[root].refs;
      var firsts := FirstOccurrences(LocationsOf(g, direct));
      var r := TransitiveRefs(g, root);
      && |firsts| <= |r|
      && LocationsOf(g, r)[..|firsts|] == firsts
      && (forall k :: 0 <= k < |firsts| ==>
            exists i: nat :: IsLastWith(g, direct, firsts[k], i) && r[k] == direct[i])
  {
    var direct := g[root].refs;
    SeedOrder(g, direct);
    FinalExtendsSeed(g, root);
    var s := Seed(g, direct);
    var w := FinalWalk(g, root);
    var firsts := FirstOccurrences(LocationsOf(g, direct));
    var r := TransitiveRefs(g, root);
    assert s.keys == firsts;
    forall k | 0 <= k < |firsts|
      ensures LocationsOf(g, r)[k] == firsts[k]
      ensures exists i: nat :: IsLastWith(g, direct, firsts[k], i) && r[k] == direct[i]
    {
      assert w.keys[k] == firsts[k];
      assert r[k] == w.vals[firsts[k]] == s.vals[firsts[k]];
    }
  }

  /** Every direct reference's location is in the result. */
  lemma TransitiveRefsCoverDirect(g: Graph, root: nat)
    requires WellFormed(g) && root < |g|
    ensures var direct := g[root].refs;
      forall i :: 0 <= i < |direct| ==> g[direct[i]].location in LocationsOf(g, TransitiveRefs(g, root))
  {
    var direct := g[root].refs;
    SeedCovers(g, direct);
    FinalExtendsSeed(g, root);
    var w := FinalWalk(g, root);
    var r := TransitiveRefs(g, root);
    assert r == Values(w);
    forall i | 0 <= i < |direct| ensures g[direct[i]].location in LocationsOf(g, r) {
      var loc := g[direct[i]].location;
      assert loc in w.keys;
      var k :| 0 <= k < |w.keys| && w.keys[k] == loc;
      assert r[k] == w.vals[loc];
      assert LocationsOf(g, r)[k] == loc;
    }
  }

  lemma SeedOfOne(g: Graph, u: nat)
    requires WellFormed(g) && u < |g|
    ensures Seed(g, [u]) == Walk([g[u].location], map[g[u].location := u], [])
  {
    assert [u][..0] == [];
  }

  /** root -> "a" -> "b" -> "c", a chain of references. */
  function ChainGraph(): (g: Graph)
    ensures WellFormed(g)
  {
    [Unit("root", [1]), Unit("a", [2]), Unit("b", [3]), Unit("c", [])]
  }

  lemma ChainReachable()
    ensures Reachable(ChainGraph(), 0, 3)
  {
    var g := ChainGraph();
    var p := [0, 1, 2, 3];
    assert Step(g, p, 0) && Step(g, p, 1) && Step(g, p, 2);
    assert IsPath(g, p);
  }

  /** Visiting a single reference. */
  lemma VisitOne(g: Graph, w: Walk, u: nat)
    requires Good(g, w) && u < |g|
    ensures var loc := g[u].location;
      Visit(g, w, [u]) == if loc in w.vals then w else Walk(w.keys + [loc], w.vals[loc := u], w.pending + g[u].refs)
  {
    assert [u][1..] == [];
  }

  /** Visiting references whose locations are all recorded changes nothing. */
  lemma {:induction false} VisitKnown(g: Graph, w: Walk, refs: seq<nat>)
    requires Good(g, w)
    requires forall i :: 0 <= i < |refs| ==> refs[i] < |g| && g[refs[i]].location in w.vals
    decreases |refs|
    ensures Visit(g, w, refs) == w
  {
    if |refs| > 0 {
      VisitKnown(g, w, refs[1..]);
    }
  }

  /**
   * The last turn but one of a loop with one pending unit, whose only
   * reference `u` has a new location: `u` is recorded and its references
   * become the stack.
   */
  lemma DrainRecords(g: Graph, w: Walk, u: nat)
    requires Good(g, w) && |w.pending| == 1 && u < |g| && g[w.pending[0]].refs == [u]
    requires g[u].location !in w.vals
    ensures var w2 := Walk(w.keys + [g[u].location], w.vals[g[u].location := u], g[u].refs);
      Good(g, w2) && Drain(g, w) == Drain(g, w2)
  {
    var loc := g[u].location;
    var w2 := Walk(w.keys + [loc], w.vals[loc := u], g[u].refs);
    var w1 := w.(pending := []);
    assert w.(pending := w.pending[..|w.pending| - 1]) == w1;
    DrainUnfold(g, w);
    assert Drain(g, w) == Drain(g, Visit(g, w1, [u]));
    VisitOne(g, w1, u);
    assert w1.pending + g[u].refs == g[u].refs;
    assert Visit(g, w1, [u]) == w2;
  }

  /** A loop with one pending unit whose references are all recorded ends there. */
  lemma DrainFinds(g: Graph, w: Walk)
    requires Good(g, w) && |w.pending| == 1
    requires forall u :: u in g[w.pending[0]].refs ==> g[u].location in w.vals
    ensures Drain(g, w) == w.(pending := [])
  {
    DrainUnfold(g, w);
    assert w.pending[..0] == [];
    VisitKnown(g, w.(pending := []), g[w.pending[0]].refs);
  }

  /**
   * A loop with one pending unit whose only reference `u` is new, and whose
   * references' references are all recorded by then: it records `u` and ends.
   */
  lemma DrainTwoTurns(g: Graph, w: Walk, u: nat)
    requires Good(g, w) && |w.pending| == 1 && u < |g| && g[w.pending[0]].refs == [u]
    requires g[u].location !in w.vals && |g[u].refs| == 1
    requires forall v :: v in g[g[u].refs[0]].refs ==>
      v < |g| && (g[v].location in w.vals || g[v].location == g[u].location)
    ensures Drain(g, w) == Walk(w.keys + [g[u].location], w.vals[g[u].location := u], [])
  {
    DrainRecords(g, w, u);
    var loc := g[u].location;
    DrainFinds(g, Walk(w.keys + [loc], w.vals[loc := u], g[u].refs));
  }

  /** The state right after seeding a single reference `u`. */
  lemma SeededOneGood(g: Graph, u: nat)
    requires WellFormed(g) && u < |g|
    ensures var loc := g[u].location; Good(g, Walk([loc], map[loc := u], [u]))
  {
  }

  /** A root with a single reference `u` starts the loop with `u` recorded and pending. */
  lemma FinalWalkOfOne(g: Graph, root: nat, u: nat)
    requires WellFormed(g) && root < |g| && u < |g| && g[root].refs == [u]
    ensures var loc := g[u].location;
      Good(g, Walk([loc], map[loc := u], [u])) && FinalWalk(g, root) == Drain(g, Walk([loc], map[loc := u], [u]))
  {
    var direct := g[root].refs;
    var s := Seed(g, direct).(pending := direct);
    assert FinalWalk(g, root) == Drain(g, s);
    SeedOfOne(g, u);
    assert s == Walk([g[u].location], map[g[u].location := u], [u]);
  }

  /** Reading out a finished walk with two keys. */
  lemma ValuesOfTwo(w: Walk, a: string, b: string, x: nat, y: nat)
    requires a != b && w.keys == [a] && w.vals == map[a := x]
    ensures Values(Walk(w.keys + [b], w.vals[b := y], [])) == [x, y]
  {
    assert w.keys + [b] == [a, b];
  }


  /** The walk on the chain below: "a" is seeded, then "b" is recorded and the loop ends. */
  lemma ChainStart(g: Graph, w: Walk)
    requires g == ChainGraph() && w == Walk(["a"], map["a" := 1], [1])
    ensures Good(g, w) && FinalWalk(g, 0) == Drain(g, w)
  {
    FinalWalkOfOne(g, 0, 1);
  }

  lemma ChainDrain(g: Graph, w: Walk)
    requires g == ChainGraph() && w == Walk(["a"], map["a" := 1], [1])
    ensures Good(g, w) && Drain(g, w) == Walk(w.keys + ["b"], w.vals["b" := 2], [])
  {
    assert g[1].refs == [2] && g[2].refs == [3] && g[3].refs == [] && g[2].location == "b";
    SeededOneGood(g, 1);
    assert g[1].location == "a";
    DrainTwoTurns(g, w, 2);
  }


  /**
   * The walk pushes `ref.references()` instead of `ref`, so the references
   * of a newly recorded unit are never examined themselves: in the chain
   * root -> "a" -> "b" -> "c", unit "c" is reachable but not collected.
   */
  lemma WalkSkipsReferencesOfNewUnits(g: Graph)
    requires g == ChainGraph()
    ensures Reachable(g, 0, 3)
    ensures TransitiveRefs(g, 0) == [1, 2]
  {
    ChainReachable();
    var w := Walk(["a"], map["a" := 1], [1]);
    ChainStart(g, w);
    ChainDrain(g, w);
    ValuesOfTwo(w, "a", "b", 1, 2);
  }

  /** root <-> "a", a cycle through the root. */
  function CycleGraph(): (g: Graph)
    ensures WellFormed(g)
  {
    [Unit("root", [1]), Unit("a", [0])]
  }

  /** The walk on the cycle: "a" is seeded, the root itself is recorded, then the loop ends. */
  lemma CycleStart(g: Graph, w: Walk)
    requires g == CycleGraph() && w == Walk(["a"], map["a" := 1], [1])
    ensures Good(g, w) && FinalWalk(g, 0) == Drain(g, w)
  {
    FinalWalkOfOne(g, 0, 1);
  }

  lemma CycleDrain(g: Graph, w: Walk)
    requires g == CycleGraph() && w == Walk(["a"], map["a" := 1], [1])
    ensures Good(g, w) && Drain(g, w) == Walk(w.keys + ["root"], w.vals["root" := 0], [])
  {
    assert g[1].refs == [0] && g[0].refs == [1] && g[0].location == "root";
    SeededOneGood(g, 1);
    assert g[1].location == "a";
    DrainTwoTurns(g, w, 0);
  }


  /**
   * On a cycle back to the root the walk terminates, and the root's own
   * unit appears among its transitive references.
   */
  lemma CyclicWalkIncludesRoot(g: Graph)
    requires g == CycleGraph()
    ensures TransitiveRefs(g, 0) == [1, 0]
  {
    var w := Walk(["a"], map["a" := 1], [1]);
    CycleStart(g, w);
    CycleDrain(g, w);
    ValuesOfTwo(w, "a", "root", 1, 0);
  }

  // ---------------------------------------------------------------------
  // The proxy object.
  // ---------------------------------------------------------------------

  /** What `nestedModel(loc)` yields. */
  datatype Nested =
    | Itself            // `return this`
    | Wraps(unit: nat)  // `new ModelProxy(unit)`
    | Undefined         // no match: `new ModelProxy(undefined)` throws reading `.raw`

  /** `location.substring(0, location.length - 1)`; an end below 0 counts as 0. */
  function DropLast(loc: string): string {
    if |loc| == 0 then "" else loc[..|loc| - 1]
  }

  predicate MatchesLocation(g: Graph, u: nat, loc: string)
    requires u < |g|
  {
    g[u].location == loc || g[u].location == DropLast(loc)
  }

  /** `refs.filter(...)[0]`, as the index of the first matching unit. */
  function FirstMatch(g: Graph, refs: seq<nat>, loc: string): (r: Option<nat>)
    requires forall i :: 0 <= i < |refs| ==> refs[i] < |g|
    ensures r.Some? ==> r.value < |refs| && MatchesLocation(g, refs[r.value], loc)
    ensures r.Some? ==> forall j :: 0 <= j < r.value ==> !MatchesLocation(g, refs[j], loc)
    ensures r.None? ==> forall j :: 0 <= j < |refs| ==> !MatchesLocation(g, refs[j], loc)
  {
    if |refs| == 0 then None
    else if MatchesLocation(g, refs[0], loc) then Some(0)
    else match FirstMatch(g, refs[1..], loc)
      case None => None
      case Some(i) => Some(i + 1)
  }

  /** Lines 51-52: `refsAcc` seeded from the root's direct references. */
  method SeedAccumulator(g: Graph, direct: seq<nat>) returns (keys: seq<string>, vals: map<string, nat>)
    requires WellFormed(g)
    requires forall i :: 0 <= i < |direct| ==> direct[i] < |g|
    ensures Walk(keys, vals, []) == Seed(g, direct)
  {
    keys, vals := [], map[];
    for i := 0 to |direct|
      invariant Walk(keys, vals, []) == Seed(g, direct[..i])
    {
      assert direct[..i + 1][..i] == direct[..i];
      var u := direct[i];
      if g[u].location !in vals {
        keys := keys + [g[u].location];
      }
      vals := vals[g[u].location := u];
    }
    assert direct[..|direct|] == direct;
  }

  /** Lines 56-61: the `forEach` over one popped unit's references. */
  method VisitReferences(g: Graph, keys0: seq<string>, vals0: map<string, nat>, pending0: seq<nat>, refs: seq<nat>)
    returns (keys: seq<string>, vals: map<string, nat>, pending: seq<nat>)
    requires Good(g, Walk(keys0, vals0, pending0))
    requires forall i :: 0 <= i < |refs| ==> refs[i] < |g|
    ensures Walk(keys, vals, pending) == Visit(g, Walk(keys0, vals0, pending0), refs)
  {
    keys, vals, pending := keys0, vals0, pending0;
    for j := 0 to |refs|
      invariant Good(g, Walk(keys, vals, pending))
      invariant Visit(g, Walk(keys, vals, pending), refs[j..]) == Visit(g, Walk(keys0, vals0, pending0), refs)
    {
      var u := refs[j];
      if g[u].location !in vals {
        keys := keys + [g[u].location];
        vals := vals[g[u].location := u];
        pending := pending + g[u].refs;
      }
    }
  }

  /** One turn of the worklist loop. */
  lemma DrainUnfold(g: Graph, w: Walk)
    requires Good(g, w) && |w.pending| > 0
    ensures var next := w.pending[|w.pending| - 1];
      var w1 := w.(pending := w.pending[..|w.pending| - 1]);
      Good(g, w1) && next < |g| && Drain(g, w) == Drain(g, Visit(g, w1, g[next].refs))
  {
  }

  /** Lines 53-62: the worklist loop, run to an empty stack. */
  method DrainPending(g: Graph, keys0: seq<string>, vals0: map<string, nat>, pending0: seq<nat>)
    returns (keys: seq<string>, vals: map<string, nat>)
    requires Good(g, Walk(keys0, vals0, pending0))
    ensures Walk(keys, vals, []) == Drain(g, Walk(keys0, vals0, pending0))
  {
    keys, vals := keys0, vals0;
    var pending := pending0;
    while |pending| > 0
      invariant Good(g, Walk(keys, vals, pending))
      invariant Drain(g, Walk(keys, vals, pending)) == Drain(g, Walk(keys0, vals0, pending0))
      decreases |Locations(g) - vals.Keys|, |pending|
    {
      ghost var w := Walk(keys, vals, pending);
      var next := pending[|pending| - 1];
      pending := pending[..|pending| - 1];
      var nrefs := g[next].refs;
      ghost var before := Walk(keys, vals, pending);
      DrainUnfold(g, w);
      keys, vals, pending := VisitReferences(g, keys, vals, pending, nrefs);
      VisitProgress(g, before, nrefs);
    }
  }

  /** Lines 63-66: the accumulated units in key order. */
  method ReadOut(w: Walk) returns (acc: seq<nat>)
    requires forall k :: k in w.keys ==> k in w.vals
    ensures acc == Values(w)
  {
    acc := [];
    for p := 0 to |w.keys|
      invariant acc == Values(w)[..p]
    {
      assert Values(w)[..p + 1] == Values(w)[..p] + [w.vals[w.keys[p]]];
      acc := acc + [w.vals[w.keys[p]]];
    }
  }

  class ModelProxy {
    /** The external library's reference graph and the wrapped unit. */
    const graph: Graph
    const root: nat
    /** `_transitiveRefs`: null until the first call. */
    var memo: Option<seq<nat>>

    ghost predicate Valid()
      reads this
    {
      && WellFormed(graph) && root < |graph|
      && (memo.Some? ==> memo.value == TransitiveRefs(graph, root))
    }

    constructor (g: Graph, unit: nat)
      requires WellFormed(g) && unit < |g|
      ensures Valid() && graph == g && root == unit && memo == None
    {
      graph, root, memo := g, unit, None;
    }

    /** `location()`. */
    function Location(): string
      requires root < |graph|
    {
      graph[root].location
    }

    /**
     * `transitiveReferences()`: computed by the worklist walk on the first
     * call, then returned unchanged from the memo on every later call.
     */
    method TransitiveReferences() returns (refs: seq<nat>)
      requires Valid()
      modifies this`memo
      ensures Valid()
      ensures refs == TransitiveRefs(graph, root) && memo == Some(refs)
      ensures old(memo).Some? ==> memo == old(memo)
    {
      if memo.None? {
        var direct := graph[root].refs;
        var keys, vals := SeedAccumulator(graph, direct);
        keys, vals := DrainPending(graph, keys, vals, direct);
        var acc := ReadOut(Walk(keys, vals, []));
        memo := Some(acc);
      }
      refs := memo.value;
    }

    /**
     * `references()`: the unit's own location, then the locations of its
     * transitive references in order.
     */
    method References() returns (locs: seq<string>)
      requires Valid()
      modifies this`memo
      ensures Valid() && memo == Some(TransitiveRefs(graph, root))
      ensures locs == [Location()] + LocationsOf(graph, TransitiveRefs(graph, root))
      ensures |locs| == 1 + |TransitiveRefs(graph, root)|
    {
      var files := [Location()];
      var refs := TransitiveReferences();
      locs := files + LocationsOf(graph, refs);
    }

    /**
     * `nestedModel(loc)`: this proxy when `loc` is its own location (the
     * walk is not run); otherwise a proxy for the first transitive reference
     * located at `loc` or at `loc` minus its last character.
     */
    method NestedModel(loc: string) returns (r: Nested)
      requires Valid()
      modifies this`memo
      ensures Valid()
      ensures loc == Location() ==> r == Itself && memo == old(memo)
      ensures loc != Location() ==>
        var refs := TransitiveRefs(graph, root);
        match FirstMatch(graph, refs, loc)
        case None => r == Undefined
        case Some(i) => r == Wraps(refs[i])
    {
      if loc == Location() {
        return Itself;
      }
      var refs := TransitiveReferences();
      var m := FirstMatch(graph, refs, loc);
      r := if m.Some? then Wraps(refs[m.value]) else Undefined;
    }
  }
}

=== FILE: Playground.dfy ===
/**
 * `src/playground/view_model.ts`: the playground's view model, with its
 * Knockout observables as plain fields and its timers as explicit events.
 * Parsing, model updates and text generation are done by an external
 * library; the model returns them as `Action`s, and a finished parse comes
 * back through `OnParsed`.
 */
module Playground {
  import opened Wrappers
  import opened Sequences
  import opened Strings
  import Utils
  import Debounce
  import opened ModelProxies

  datatype EditorSection = Raml | OpenApi | ApiModel | Diagram | Query
  datatype ModelLevel = DocumentLevel | DomainLevel

  /** The sections whose text can be parsed. */
  predicate IsSource(s: EditorSection) {
    s == Raml || s == OpenApi || s == ApiModel
  }

  /** `canParse`: no parser chosen yet, or the editor shows the chosen parser's section. */
  predicate CanParse(selectedParserType: Option<EditorSection>, editorSection: EditorSection) {
    selectedParserType.None? || selectedParserType.value == editorSection
  }

  // ---------------------------------------------------------------------
  // References (`makeReference`).
  // ---------------------------------------------------------------------

  datatype RefKind = Local | Remote

  /** A `ReferenceFile`: id, label and type. */
  datatype ReferenceFile = ReferenceFile(kind: RefKind, id: string, refLabel: string)

  /** `currentLocationDir`: everything before the last '/', followed by '/'. */
  function LocationDir(currentLocation: string): (dir: string)
    ensures |dir| > 0 && dir[|dir| - 1] == '/'
  {
    var parts := Split(currentLocation, "/");
    Join(parts[..|parts| - 1], "/") + "/"
  }

  /**
   * `makeReference(currentLocation, reference)`; `None` for a null
   * reference, which the source reports by throwing.  Both branches on the
   * current location's directory build the same entry.
   */
  function MakeReference(currentLocation: string, reference: Option<string>): (r: Option<ReferenceFile>)
    ensures r.None? <==> reference.None?
    ensures r.Some? ==> r.value.id == reference.value && r.value.refLabel == Utils.Label(reference.value)
    ensures r.Some? ==> (r.value.kind == Remote <==> StartsWith(reference.value, "http"))
  {
    if reference.None? then None
    else
      var currentLocationDir := LocationDir(currentLocation);
      var ref := reference.value;
      IndexOfZeroIsPrefix(ref, "http");
      var isRemote := IndexOf(ref, "http") == 0;
      if IndexOf(ref, currentLocationDir) == 0 then
        Some(ReferenceFile(if isRemote then Remote else Local, ref, Utils.Label(ref)))
      else
        Some(ReferenceFile(if isRemote then Remote else Local, ref, Utils.Label(ref)))
  }

  /** The reference entry does not depend on the current location at all. */
  lemma MakeReferenceIgnoresLocation(loc1: string, loc2: string, reference: Option<string>)
    ensures MakeReference(loc1, reference) == MakeReference(loc2, reference)
  {
  }

  /** The entries `resetReferences` pushes, one per location, in order. */
  function ReferenceList(currentLocation: string, locs: seq<string>): (r: seq<ReferenceFile>)
    ensures |r| == |locs|
    ensures forall i :: 0 <= i < |locs| ==> Some(r[i]) == MakeReference(currentLocation, Some(locs[i]))
  {
    seq(|locs|, i requires 0 <= i < |locs| => MakeReference(currentLocation, Some(locs[i])).value)
  }

  // ---------------------------------------------------------------------
  // Domain units (`resetDomainUnits`, `isTopLevelUnit`).
  // ---------------------------------------------------------------------

  /** A domain element as the navigator shows it; `expanded` may be unset. */
  datatype DomainElement = DomainElement(id: string, kind: string, expanded: Option<bool>)

  /** A `DomainModel`: its root may be null. */
  datatype DomainModel = DomainModel(root: Option<DomainElement>)

  /** The `domainUnits` object: kinds in key order, and each kind's elements. */
  datatype Groups = Groups(kinds: seq<string>, byKind: map<string, seq<DomainElement>>)

  const NoGroups := Groups([], map[])

  ghost predicate WellGrouped(g: Groups) {
    Distinct(g.kinds) && forall k :: k in g.byKind <==> k in g.kinds
  }

  function GroupOf(g: Groups, k: string): seq<DomainElement> {
    if k in g.byKind then g.byKind[k] else []
  }

  /** All elements of the first `kinds`' groups, in key order. */
  function Flatten(g: Groups, kinds: seq<string>): seq<DomainElement> {
    if |kinds| == 0 then []
    else Flatten(g, kinds[..|kinds| - 1]) + GroupOf(g, kinds[|kinds| - 1])
  }

  /** An object filled from `us` by id: a later element overwrites an earlier one. */
  function IndexById(us: seq<DomainElement>): map<string, DomainElement> {
    if |us| == 0 then map[]
    else IndexById(us[..|us| - 1])[us[|us| - 1].id := us[|us| - 1]]
  }

  /** The index of the last element of `us` with id `id`. */
  ghost predicate IsLastWithId(us: seq<DomainElement>, id: string, i: nat) {
    i < |us| && us[i].id == id && forall j :: i < j < |us| ==> us[j].id != id
  }

  /** The element under id `id` is the LAST element of `us` with that id. */
  lemma {:induction false} IndexByIdLast(us: seq<DomainElement>, id: string)
    ensures id in IndexById(us) <==> exists i :: 0 <= i < |us| && us[i].id == id
    ensures id in IndexById(us) ==> exists i: nat :: IsLastWithId(us, id, i) && IndexById(us)[id] == us[i]
  {
    if |us| > 0 {
      var n := |us| - 1;
      var pre := us[..n];
      IndexByIdLast(pre, id);
      assert IndexById(us) == IndexById(pre)[us[n].id := us[n]];
      if us[n].id == id {
        assert IsLastWithId(us, id, n);
      } else if id in IndexById(pre) {
        var i: nat :| IsLastWithId(pre, id, i) && IndexById(pre)[id] == pre[i];
        assert us[i] == pre[i];
        forall j | i < j < |us| ensures us[j].id != id {
          if j < n {
            assert us[j] == pre[j];
          }
        }
        assert IsLastWithId(us, id, i);
      } else {
        forall i | 0 <= i < |us| ensures us[i].id != id {
          if i < n {
            assert pre[i] == us[i];
          }
        }
      }
    }
  }


  /** A new element takes `expanded` from the old element with its id, if any. */
  function Carry(u: DomainElement, previousById: map<string, DomainElement>): DomainElement {
    if u.id in previousById then u.(expanded := previousById[u.id].expanded) else u
  }

  /** The `forEach` over the selected reference's domain models. */
  function Grouped(domains: seq<DomainModel>, previousById: map<string, DomainElement>): (g: Groups)
    ensures WellGrouped(g)
  {
    if |domains| == 0 then NoGroups
    else
      var g := Grouped(domains[..|domains| - 1], previousById);
      var d := domains[|domains| - 1];
      if d.root.None? then g
      else
        var k := d.root.value.kind;
        Groups(if k in g.byKind then g.kinds else g.kinds + [k],
               g.byKind[k := GroupOf(g, k) + [Carry(d.root.value, previousById)]])
  }

  /** What `resetDomainUnits` leaves in `domainUnits`. */
  function DomainUnits(selected: Option<ReferenceFile>, previous: Groups,
                       referenceToDomainUnits: map<string, seq<DomainModel>>): (g: Groups)
    ensures WellGrouped(g)
  {
    if selected.None? then NoGroups
    else
      var domains := if selected.value.id in referenceToDomainUnits
                     then referenceToDomainUnits[selected.value.id] else [];
      Grouped(domains, IndexById(Flatten(previous, previous.kinds)))
  }

  /** The kinds of the non-null roots, in order. */
  function RootKinds(domains: seq<DomainModel>): seq<string> {
    if |domains| == 0 then []
    else
      var d := domains[|domains| - 1];
      RootKinds(domains[..|domains| - 1]) + (if d.root.Some? then [d.root.value.kind] else [])
  }

  /** The non-null roots of kind `k`, in order, each with its carried `expanded`. */
  function RootsOfKind(domains: seq<DomainModel>, k: string, previousById: map<string, DomainElement>): seq<DomainElement> {
    if |domains| == 0 then []
    else
      var d := domains[|domains| - 1];
      RootsOfKind(domains[..|domains| - 1], k, previousById) +
        (if d.root.Some? && d.root.value.kind == k then [Carry(d.root.value, previousById)] else [])
  }

  /**
   * Grouping by kind: the kinds appear in the order of their first root,
   * and each kind's group is that kind's roots in order (null roots
   * skipped), each with `expanded` carried over.
   */
  lemma {:induction false} GroupedByKind(domains: seq<DomainModel>, previousById: map<string, DomainElement>)
    ensures Grouped(domains, previousById).kinds == FirstOccurrences(RootKinds(domains))
    ensures forall k :: k in Grouped(domains, previousById).byKind <==> k in RootKinds(domains)
    ensures forall k :: GroupOf(Grouped(domains, previousById), k) == RootsOfKind(domains, k, previousById)
  {
    if |domains| > 0 {
      var pre := domains[..|domains| - 1];
      GroupedByKind(pre, previousById);
      var d := domains[|domains| - 1];
      if d.root.Some? {
        var ks := RootKinds(domains);
        assert ks == RootKinds(pre) + [d.root.value.kind];
        assert ks[..|ks| - 1] == RootKinds(pre);
        var k := d.root.value.kind;
        var g := Grouped(pre, previousById);
        assert (k in g.byKind) == (k in FirstOccurrences(RootKinds(pre)));
        assert FirstOccurrences(ks) ==
          if k in FirstOccurrences(RootKinds(pre)) then FirstOccurrences(RootKinds(pre))
          else FirstOccurrences(RootKinds(pre)) + [k];
      } else {
        assert RootKinds(domains) == RootKinds(pre);
      }
    }
  }

  /**
   * `resetDomainUnits`: empty without a selected reference; otherwise the
   * selected reference's roots grouped by kind, each taking `expanded` from
   * the LAST previous element with its id (previous groups read in key
   * order), and keeping its own when there is none.
   */
  lemma DomainUnitsSpec(selected: Option<ReferenceFile>, previous: Groups,
                        referenceToDomainUnits: map<string, seq<DomainModel>>, u: DomainElement)
    ensures selected.None? ==> DomainUnits(selected, previous, referenceToDomainUnits) == NoGroups
    ensures var all := Flatten(previous, previous.kinds);
      && (u.id !in IndexById(all) ==> Carry(u, IndexById(all)) == u)
      && (u.id in IndexById(all) ==>
            exists i: nat :: IsLastWithId(all, u.id, i) && Carry(u, IndexById(all)) == u.(expanded := all[i].expanded))
  {
    IndexByIdLast(Flatten(previous, previous.kinds), u.id);
  }

  /** The last element of `us` with id `id`, as the `forEach` in `isTopLevelUnit` leaves it. */
  function LastWithId(us: seq<DomainElement>, id: string): (r: Option<DomainElement>)
    ensures r.Some? ==> r.value.id == id
    ensures r.None? <==> forall i :: 0 <= i < |us| ==> us[i].id != id
  {
    if |us| == 0 then None
    else if us[|us| - 1].id == id then Some(us[|us| - 1])
    else
      assert forall i :: 0 <= i < |us| - 1 ==> us[i] == us[..|us| - 1][i];
      LastWithId(us[..|us| - 1], id)
  }

  /** `found` ends up as the LAST element with the id: later matches overwrite earlier ones. */
  lemma {:induction false} LastWithIdIsLast(us: seq<DomainElement>, id: string)
    ensures LastWithId(us, id).Some? ==>
      exists i: nat :: IsLastWithId(us, id, i) && LastWithId(us, id).value == us[i]
  {
    if |us| > 0 {
      if us[|us| - 1].id == id {
        assert IsLastWithId(us, id, |us| - 1);
      } else {
        var pre := us[..|us| - 1];
        LastWithIdIsLast(pre, id);
        assert LastWithId(us, id) == LastWithId(pre, id);
        if LastWithId(pre, id).Some? {
          var i: nat :| IsLastWithId(pre, id, i) && LastWithId(pre, id).value == pre[i];
          assert us[i] == pre[i];
          forall j | i < j < |us| ensures us[j].id != id {
            if j < |us| - 1 {
              assert us[j] == pre[j];
            }
          }
          assert IsLastWithId(us, id, i);
        }
      }
    }
  }

  /**
   * `isTopLevelUnit`: the last element with the id within the first kind
   * (in key order) that has one, or nothing when no kind has one.
   */
  function TopLevelUnit(g: Groups, kinds: seq<string>, id: string): (r: Option<DomainElement>)
    ensures r.None? <==> forall k :: k in kinds ==> LastWithId(GroupOf(g, k), id).None?
    ensures r.Some? ==> r.value.id == id
  {
    if |kinds| == 0 then None
    else
      var found := LastWithId(GroupOf(g, kinds[0]), id);
      if found.Some? then found
      else
        assert forall k :: k in kinds ==> k == kinds[0] || k in kinds[1..];
        TopLevelUnit(g, kinds[1..], id)
  }

  /** The kinds before the one `isTopLevelUnit` answers from have no element with the id. */
  lemma {:induction false} TopLevelUnitFirst(g: Groups, kinds: seq<string>, id: string)
    ensures var r := TopLevelUnit(g, kinds, id);
      r.Some? ==>
        exists n :: 0 <= n < |kinds| && r == LastWithId(GroupOf(g, kinds[n]), id) &&
          forall m :: 0 <= m < n ==> LastWithId(GroupOf(g, kinds[m]), id).None?
  {
    if |kinds| > 0 && LastWithId(GroupOf(g, kinds[0]), id).None? {
      TopLevelUnitFirst(g, kinds[1..], id);
      if TopLevelUnit(g, kinds[1..], id).Some? {
        TopLevelUnitShift(g, kinds, id, TopLevelUnit(g, kinds[1..], id));
      }
    }
  }

  /** A kind without the id, put in front, does not change which kind answers first. */
  lemma TopLevelUnitShift(g: Groups, kinds: seq<string>, id: string, r: Option<DomainElement>)
    requires |kinds| > 0 && LastWithId(GroupOf(g, kinds[0]), id).None?
    requires exists n ::
      && 0 <= n < |kinds[1..]| && r == LastWithId(GroupOf(g, kinds[1..][n]), id)
      && forall m :: 0 <= m < n ==> LastWithId(GroupOf(g, kinds[1..][m]), id).None?
    ensures exists n ::
      && 0 <= n < |kinds| && r == LastWithId(GroupOf(g, kinds[n]), id)
      && forall m :: 0 <= m < n ==> LastWithId(GroupOf(g, kinds[m]), id).None?
  {
    var n :| 0 <= n < |kinds[1..]| && r == LastWithId(GroupOf(g, kinds[1..][n]), id) &&
      forall m :: 0 <= m < n ==> LastWithId(GroupOf(g, kinds[1..][m]), id).None?;
    assert kinds[n + 1] == kinds[1..][n];
    forall m | 0 <= m < n + 1 ensures LastWithId(GroupOf(g, kinds[m]), id).None? {
      if m > 0 { assert kinds[m] == kinds[1..][m - 1]; }
    }
  }



  // ---------------------------------------------------------------------
  // `pathTo`: a depth-first search for the element with a given id.
  // ---------------------------------------------------------------------

  /** A JSON-like JavaScript value; `Null` stands for null and undefined. */
  datatype Value = Null | Str(s: string) | Prim(truthy: bool) | Arr(items: seq<Value>) | Obj(props: seq<Prop>)

  /** An own property of an object, in property order. */
  datatype Prop = Prop(key: string, val: Value)

  /** `obj[key]`: the property's value, undefined when absent. */
  function Get(props: seq<Prop>, key: string): Value {
    if |props| == 0 then Null
    else if props[0].key == key then props[0].val
    else Get(props[1..], key)
  }

  predicate Truthy(v: Value) {
    match v
    case Null => false
    case Str(s) => s != ""
    case Prim(t) => t
    case Arr(_) => true
    case Obj(_) => true
  }

  /** The guard of `pathTo`: an object with an id, or one with a truthy root/encodes/declares/references. */
  predicate Searched(v: Value) {
    v.Obj? && (Get(v.props, "id") != Null || Truthy(Get(v.props, "root")) || Truthy(Get(v.props, "encodes"))
      || Truthy(Get(v.props, "declares")) || Truthy(Get(v.props, "references")))
  }

  predicate HasId(v: Value, target: string) {
    v.Obj? && Get(v.props, "id") == Str(target)
  }

  /** `pathTo(target, next, acc)`: `acc` extended by the nodes from `next` down to the match. */
  function PathTo(target: string, next: Value, acc: seq<Value>): Option<seq<Value>>
    decreases next, if next.Obj? then |next.props| + 1 else 0, 0, 0
  {
    if !Searched(next) then None
    else if HasId(next, target) then Some(acc + [next])
    else SearchProps(target, next, 0, acc + [next])
  }

  /** The `for ... in` over the properties of `obj`, from the `i`-th on. */
  function SearchProps(target: string, obj: Value, i: nat, acc: seq<Value>): Option<seq<Value>>
    requires obj.Obj? && i <= |obj.props|
    decreases obj, |obj.props| - i, 1, 0
  {
    if i == |obj.props| then None
    else
      var elem := obj.props[i].val;
      if elem.Arr? then SearchItems(target, obj, i, 0, acc)
      else
        var res := PathTo(target, elem, acc);
        if res.Some? then res else SearchProps(target, obj, i + 1, acc)
  }

  /** The loop over the items of an array-valued property, from the `j`-th on. */
  function SearchItems(target: string, obj: Value, i: nat, j: nat, acc: seq<Value>): Option<seq<Value>>
    requires obj.Obj? && i < |obj.props| && obj.props[i].val.Arr? && j <= |obj.props[i].val.items|
    decreases obj, |obj.props| - i, 0, |obj.props[i].val.items| - j
  {
    var items := obj.props[i].val.items;
    if j == |items| then SearchProps(target, obj, i + 1, acc)
    else
      var res := PathTo(target, items[j], acc);
      if res.Some? then res else SearchItems(target, obj, i, j + 1, acc)
  }

  /** `c` is visited right below `p`: a property value, or an item of an array-valued property. */
  ghost predicate ChildAt(c: Value, p: Value, k: nat) {
    p.Obj? && k < |p.props| &&
    (if p.props[k].val.Arr? then c in p.props[k].val.items else c == p.props[k].val)
  }

  ghost predicate ChildOf(c: Value, p: Value) {
    exists k: nat :: ChildAt(c, p, k)
  }

  /** A chain of searched nodes, each below the previous, ending at the first node with the id. */
  ghost predicate IsPath(path: seq<Value>, target: string) {
    && |path| >= 1
    && (forall i :: 0 <= i < |path| ==> Searched(path[i]))
    && HasId(path[|path| - 1], target)
    && (forall i :: 0 <= i < |path| - 1 ==> !HasId(path[i], target))
    && (forall i :: 0 <= i < |path| - 1 ==> ChildOf(path[i + 1], path[i]))
  }

  /** What a found path looks like: `acc`, then a path from `v` to a node with the id. */
  ghost predicate FoundFrom(r: seq<Value>, acc: seq<Value>, v: Value, target: string) {
    |r| > |acc| && r[..|acc|] == acc && r[|acc|] == v && IsPath(r[|acc|..], target)
  }

  /** A path found below `obj` (whose node ends `acc`) starts at a child of `obj`. */
  ghost predicate FoundBelow(r: seq<Value>, acc: seq<Value>, obj: Value, target: string) {
    |r| > |acc| && r[..|acc|] == acc && ChildOf(r[|acc|], obj) && IsPath(r[|acc|..], target)
  }

  lemma PrependPath(r: seq<Value>, acc: seq<Value>, v: Value, target: string)
    requires Searched(v) && !HasId(v, target)
    requires FoundBelow(r, acc + [v], v, target)
    ensures FoundFrom(r, acc, v, target)
  {
    var n := |acc|;
    assert r[..n] == (r[..n + 1])[..n];
    var q := r[n + 1..];
    assert r[n..] == [v] + q;
    var p := r[n..];
    forall i | 0 <= i < |p| - 1 ensures ChildOf(p[i + 1], p[i]) {
      if i > 0 { assert p[i] == q[i - 1] && p[i + 1] == q[i]; }
    }
  }

  /** Soundness of `pathTo`: a result is `acc` followed by a path from `next` to a node with the id. */
  lemma {:induction false} PathToSound(target: string, next: Value, acc: seq<Value>)
    ensures PathTo(target, next, acc).Some? ==> FoundFrom(PathTo(target, next, acc).value, acc, next, target)
    decreases next, if next.Obj? then |next.props| + 1 else 0, 0, 0
  {
    if Searched(next) && !HasId(next, target) {
      SearchPropsSound(target, next, 0, acc + [next]);
      if PathTo(target, next, acc).Some? {
        PrependPath(PathTo(target, next, acc).value, acc, next, target);
      }
    }
  }

  lemma {:induction false} SearchPropsSound(target: string, obj: Value, i: nat, acc: seq<Value>)
    requires obj.Obj? && i <= |obj.props|
    ensures SearchProps(target, obj, i, acc).Some? ==>
      FoundBelow(SearchProps(target, obj, i, acc).value, acc, obj, target)
    decreases obj, |obj.props| - i, 1, 0
  {
    if i < |obj.props| {
      var elem := obj.props[i].val;
      if elem.Arr? {
        SearchItemsSound(target, obj, i, 0, acc);
      } else {
        PathToSound(target, elem, acc);
        SearchPropsSound(target, obj, i + 1, acc);
        if PathTo(target, elem, acc).Some? {
          assert ChildAt(elem, obj, i);
        }
      }
    }
  }

  lemma {:induction false} SearchItemsSound(target: string, obj: Value, i: nat, j: nat, acc: seq<Value>)
    requires obj.Obj? && i < |obj.props| && obj.props[i].val.Arr? && j <= |obj.props[i].val.items|
    ensures SearchItems(target, obj, i, j, acc).Some? ==>
      FoundBelow(SearchItems(target, obj, i, j, acc).value, acc, obj, target)
    decreases obj, |obj.props| - i, 0, |obj.props[i].val.items| - j
  {
    var items := obj.props[i].val.items;
    if j == |items| {
      SearchPropsSound(target, obj, i + 1, acc);
    } else {
      PathToSound(target, items[j], acc);
      SearchItemsSound(target, obj, i, j + 1, acc);
      if PathTo(target, items[j], acc).Some? {
        assert ChildAt(items[j], obj, i);
      }
    }
  }

  /** Completeness of `pathTo`: whenever such a path exists, `pathTo` finds one. */
  lemma {:induction false} PathToComplete(target: string, next: Value, acc: seq<Value>, path: seq<Value>)
    requires IsPath(path, target) && path[0] == next
    ensures PathTo(target, next, acc).Some?
    decreases next, if next.Obj? then |next.props| + 1 else 0, 0, 0
  {
    if !HasId(next, target) {
      assert |path| >= 2;
      var c := path[1];
      var k: nat :| ChildAt(c, next, k);
      TailIsPath(path, target);
      SearchPropsComplete(target, next, 0, acc + [next], k, c, path[1..]);
    }
  }

  lemma TailIsPath(path: seq<Value>, target: string)
    requires IsPath(path, target) && |path| >= 2
    ensures IsPath(path[1..], target)
  {
    var q := path[1..];
    forall i | 0 <= i < |q| - 1 ensures ChildOf(q[i + 1], q[i]) {
      assert q[i] == path[i + 1] && q[i + 1] == path[i + 2];
    }
  }

  lemma {:induction false} SearchPropsComplete(target: string, obj: Value, i: nat, acc: seq<Value>,
                                               k: nat, c: Value, path: seq<Value>)
    requires obj.Obj? && i <= k && ChildAt(c, obj, k)
    requires IsPath(path, target) && path[0] == c
    ensures SearchProps(target, obj, i, acc).Some?
    decreases obj, |obj.props| - i, 1, 0
  {
    var elem := obj.props[i].val;
    if elem.Arr? {
      if i == k {
        var m :| 0 <= m < |elem.items| && elem.items[m] == c;
        SearchItemsComplete(target, obj, i, 0, acc, k, c, path);
      } else {
        SearchItemsComplete(target, obj, i, 0, acc, k, c, path);
      }
    } else if i == k {
      PathToComplete(target, c, acc, path);
    } else if PathTo(target, elem, acc).None? {
      SearchPropsComplete(target, obj, i + 1, acc, k, c, path);
    }
  }

  lemma {:induction false} SearchItemsComplete(target: string, obj: Value, i: nat, j: nat, acc: seq<Value>,
                                               k: nat, c: Value, path: seq<Value>)
    requires obj.Obj? && i < |obj.props| && obj.props[i].val.Arr? && j <= |obj.props[i].val.items|
    requires i <= k && ChildAt(c, obj, k)
    requires i == k ==> c in obj.props[i].val.items[j..]
    requires IsPath(path, target) && path[0] == c
    ensures SearchItems(target, obj, i, j, acc).Some?
    decreases obj, |obj.props| - i, 0, |obj.props[i].val.items| - j
  {
    var items := obj.props[i].val.items;
    if j == |items| {
      SearchPropsComplete(target, obj, i + 1, acc, k, c, path);
    } else if i == k && items[j] == c {
      PathToComplete(target, c, acc, path);
    } else if PathTo(target, items[j], acc).None? {
      if i == k {
        assert c in items[j + 1..] by {
          var m :| j <= m < |items| && items[m] == c;
          assert m != j;
          assert items[j + 1..][m - j - 1] == c;
        }
      }
      SearchItemsComplete(target, obj, i, j + 1, acc, k, c, path);
    }
  }

  /**
   * `pathTo` finds something exactly when there is a chain of searched
   * objects from `next` down to one whose id is the target; what it finds
   * is `acc` followed by such a chain.
   */
  lemma PathToSpec(target: string, next: Value, acc: seq<Value>)
    ensures PathTo(target, next, acc).Some? ==> FoundFrom(PathTo(target, next, acc).value, acc, next, target)
    ensures PathTo(target, next, acc).None? ==> forall path :: IsPath(path, target) ==> path[0] != next
  {
    PathToSound(target, next, acc);
    forall path | IsPath(path, target) && path[0] == next ensures PathTo(target, next, acc).Some? {
      PathToComplete(target, next, acc, path);
    }
  }

  /**
   * A position the loops of `pathTo` visit below `obj`: item `m` of the
   * array-valued property `k`, or the value of property `k` itself (`m == 0`).
   */
  predicate Slot(obj: Value, k: nat, m: nat) {
    obj.Obj? && k < |obj.props| &&
    (if obj.props[k].val.Arr? then m < |obj.props[k].val.items| else m == 0)
  }

  function SlotValue(obj: Value, k: nat, m: nat): Value
    requires Slot(obj, k, m)
  {
    if obj.props[k].val.Arr? then obj.props[k].val.items[m] else obj.props[k].val
  }

  /** Position `(k', m')` is searched before `(k, m)`. */
  predicate Before(k': nat, m': nat, k: nat, m: nat) {
    k' < k || (k' == k && m' < m)
  }

  /** Position `(k', m')` is searched by the loops started at property `i`, item `j`. */
  predicate From(k': nat, m': nat, i: nat, j: nat) {
    k' > i || (k' == i && m' >= j)
  }

  /** There is a chain from `v` down to a node with the id. */
  ghost predicate Reaches(v: Value, target: string) {
    exists path :: IsPath(path, target) && path[0] == v
  }

  /**
   * `r` is the search from the first position, from property `i` and item
   * `j` on, whose search succeeds: every earlier such position fails.
   */
  ghost predicate FirstFrom(target: string, obj: Value, i: nat, j: nat, acc: seq<Value>, r: Option<seq<Value>>) {
    exists k, m ::
      && Slot(obj, k, m) && From(k, m, i, j) && r == PathTo(target, SlotValue(obj, k, m), acc)
      && forall k', m' :: Slot(obj, k', m') && From(k', m', i, j) && Before(k', m', k, m) ==>
           PathTo(target, SlotValue(obj, k', m'), acc).None?
  }

  /** Starting earlier, at positions whose searches all fail, finds the same first success. */
  lemma FirstFromShift(target: string, obj: Value, i: nat, j: nat, i2: nat, j2: nat, acc: seq<Value>, r: Option<seq<Value>>)
    requires FirstFrom(target, obj, i2, j2, acc, r)
    requires forall k, m :: Slot(obj, k, m) && From(k, m, i2, j2) ==> From(k, m, i, j)
    requires forall k', m' :: Slot(obj, k', m') && From(k', m', i, j) && !From(k', m', i2, j2) ==>
      PathTo(target, SlotValue(obj, k', m'), acc).None?
    ensures FirstFrom(target, obj, i, j, acc, r)
  {
    var k, m :| && Slot(obj, k, m) && From(k, m, i2, j2) && r == PathTo(target, SlotValue(obj, k, m), acc)
      && forall k', m' :: Slot(obj, k', m') && From(k', m', i2, j2) && Before(k', m', k, m) ==>
           PathTo(target, SlotValue(obj, k', m'), acc).None?;
    assert From(k, m, i, j);
  }

  /** The first position whose search succeeds, among those from (`i`, `j`), is itself when it succeeds. */
  lemma FirstFromHere(target: string, obj: Value, i: nat, j: nat, acc: seq<Value>)
    requires Slot(obj, i, j) && PathTo(target, SlotValue(obj, i, j), acc).Some?
    ensures FirstFrom(target, obj, i, j, acc, PathTo(target, SlotValue(obj, i, j), acc))
  {
    assert From(i, j, i, j);
  }

  /** The property loop returns the search of the first position from `i` whose search succeeds. */
  lemma {:induction false} SearchPropsFirst(target: string, obj: Value, i: nat, acc: seq<Value>)
    requires obj.Obj? && i <= |obj.props|
    ensures SearchProps(target, obj, i, acc).Some? ==> FirstFrom(target, obj, i, 0, acc, SearchProps(target, obj, i, acc))
    decreases |obj.props| - i, 1, 0
  {
    if i < |obj.props| {
      var elem := obj.props[i].val;
      if elem.Arr? {
        SearchItemsFirst(target, obj, i, 0, acc);
      } else if PathTo(target, elem, acc).Some? {
        FirstFromHere(target, obj, i, 0, acc);
      } else {
        SearchPropsFirst(target, obj, i + 1, acc);
        if SearchProps(target, obj, i, acc).Some? {
          FirstFromShift(target, obj, i, 0, i + 1, 0, acc, SearchProps(target, obj, i, acc));
        }
      }
    }
  }

  /** The item loop returns the search of the first position from item `j` of property `i` whose search succeeds. */
  lemma {:induction false} SearchItemsFirst(target: string, obj: Value, i: nat, j: nat, acc: seq<Value>)
    requires obj.Obj? && i < |obj.props| && obj.props[i].val.Arr? && j <= |obj.props[i].val.items|
    ensures SearchItems(target, obj, i, j, acc).Some? ==> FirstFrom(target, obj, i, j, acc, SearchItems(target, obj, i, j, acc))
    decreases |obj.props| - i, 0, |obj.props[i].val.items| - j
  {
    var items := obj.props[i].val.items;
    if j == |items| {
      SearchPropsFirst(target, obj, i + 1, acc);
      if SearchItems(target, obj, i, j, acc).Some? {
        FirstFromShift(target, obj, i, j, i + 1, 0, acc, SearchItems(target, obj, i, j, acc));
      }
    } else if PathTo(target, items[j], acc).Some? {
      FirstFromHere(target, obj, i, j, acc);
    } else {
      SearchItemsFirst(target, obj, i, j + 1, acc);
      if SearchItems(target, obj, i, j, acc).Some? {
        assert SlotValue(obj, i, j) == items[j];
        FirstFromShift(target, obj, i, j, i, j + 1, acc, SearchItems(target, obj, i, j, acc));
      }
    }
  }

  /**
   * `pathTo` returns on the first success of its loops: below a node
   * without the id, the result is the search from the first position,
   * property by property and item by item, from which a chain to the id
   * exists, and no earlier position has one.
   */
  lemma PathToFirst(target: string, next: Value, acc: seq<Value>)
    ensures var r := PathTo(target, next, acc);
      r.Some? && !HasId(next, target) ==>
        exists k, m ::
          && Slot(next, k, m) && r == PathTo(target, SlotValue(next, k, m), acc + [next])
          && Reaches(SlotValue(next, k, m), target)
          && forall k', m' :: Slot(next, k', m') && Before(k', m', k, m) ==> !Reaches(SlotValue(next, k', m'), target)
  {
    if Searched(next) && !HasId(next, target) {
      var acc' := acc + [next];
      SearchPropsFirst(target, next, 0, acc');
      if PathTo(target, next, acc).Some? {
        var k, m :| && Slot(next, k, m) && From(k, m, 0, 0)
          && PathTo(target, next, acc) == PathTo(target, SlotValue(next, k, m), acc')
          && forall k', m' :: Slot(next, k', m') && From(k', m', 0, 0) && Before(k', m', k, m) ==>
               PathTo(target, SlotValue(next, k', m'), acc').None?;
        PathToSound(target, SlotValue(next, k, m), acc');
        var r := PathTo(target, SlotValue(next, k, m), acc').value;
        assert IsPath(r[|acc'|..], target) && r[|acc'|..][0] == SlotValue(next, k, m);
        forall k', m' | Slot(next, k', m') && Before(k', m', k, m)
          ensures !Reaches(SlotValue(next, k', m'), target)
        {
          assert From(k', m', 0, 0);
          PathToSpec(target, SlotValue(next, k', m'), acc');
        }
      }
    }
  }

  // ---------------------------------------------------------------------
  // The view model.
  // ---------------------------------------------------------------------

  /** What an update asks of the external library. */
  datatype Action = NoAction | Parse(section: EditorSection) | Update(location: string, section: EditorSection)

  /** `doParse(section)`: only the three source sections are parsed. */
  function ParseAction(section: EditorSection): Action {
    if IsSource(section) then Parse(section) else NoAction
  }

  /**
   * The outcome of `updateDocumentModel(section)` in a state with the given
   * flag, active-model location and editor section.
   */
  function UpdateAction(dirty: bool, model: Option<string>, section: Option<EditorSection>,
                        editorSection: EditorSection): (a: Action)
    ensures !dirty ==> a == NoAction
    ensures dirty && model.None? ==>
      (a != NoAction <==> IsSource(if section.Some? then section.value else editorSection))
    ensures a.Update? <==> dirty && model.Some?
    ensures a.Update? ==> a.location == model.value
  {
    var s := if section.Some? then section.value else editorSection;
    if !dirty then NoAction
    else if model.None? then ParseAction(s)
    else Update(model.value, s)
  }

  /**
   * The location of the model `selectNavigatorFile` makes active: the
   * document model itself when the ids agree, else the proxy `nestedModel`
   * returns; `None` when no transitive reference matches, where
   * `nestedModel` throws.
   */
  function NestedLocation(g: Graph, root: nat, loc: string): (r: Option<string>)
    requires WellFormed(g) && root < |g|
    ensures r.Some? ==> r.value == loc || r.value == DropLast(loc)
    ensures loc == g[root].location ==> r == Some(loc)
  {
    if loc == g[root].location then Some(loc)
    else
      var refs := TransitiveRefs(g, root);
      match FirstMatch(g, refs, loc)
      case None => None
      case Some(i) => Some(g[refs[i]].location)
  }

  lemma ReferenceListAppend(currentLocation: string, locs: seq<string>, loc: string)
    ensures ReferenceList(currentLocation, locs + [loc]) ==
      ReferenceList(currentLocation, locs) + [MakeReference(currentLocation, Some(loc)).value]
  {
    var a := ReferenceList(currentLocation, locs + [loc]);
    var b := ReferenceList(currentLocation, locs) + [MakeReference(currentLocation, Some(loc)).value];
    forall i | 0 <= i < |a| ensures a[i] == b[i] {
      if i < |locs| {
        assert (locs + [loc])[i] == locs[i];
      }
    }
  }

  /** What `NestedModel` returns, read as the location `nestedModel` makes active. */
  lemma NestedLocationOf(g: Graph, root: nat, loc: string, nested: Nested)
    requires WellFormed(g) && root < |g| && loc != g[root].location
    requires var refs := TransitiveRefs(g, root);
      match FirstMatch(g, refs, loc)
      case None => nested == Undefined
      case Some(i) => nested == Wraps(refs[i])
    ensures nested.Undefined? <==> NestedLocation(g, root, loc).None?
    ensures nested.Wraps? ==> nested.unit < |g| && NestedLocation(g, root, loc) == Some(g[nested.unit].location)
    ensures !nested.Itself?
  {
  }

  /**
   * What `resetReferences` leaves in `references` for the active model at
   * `location` within the document `(g, root)`: at document level one entry
   * per `documentModel.references()`, at domain level one for `location`.
   */
  function ReferencesOf(level: ModelLevel, location: string, g: Graph, root: nat): seq<ReferenceFile>
    requires WellFormed(g) && root < |g|
  {
    var locs := if level == DocumentLevel then [g[root].location] + LocationsOf(g, TransitiveRefs(g, root))
                else [location];
    ReferenceList(location, locs)
  }

  /** The `forEach` in `resetReferences` pushing one entry per location. */
  method PushReferences(location: string, locs: seq<string>) returns (refs: seq<ReferenceFile>)
    ensures refs == ReferenceList(location, locs)
  {
    refs := [];
    for i := 0 to |locs|
      invariant refs == ReferenceList(location, locs[..i])
    {
      var r := MakeReference(location, Some(locs[i]));
      assert locs[..i + 1] == locs[..i] + [locs[i]];
      ReferenceListAppend(location, locs[..i], locs[i]);
      refs := refs + [r.value];
    }
    assert locs[..|locs|] == locs;
  }

  /** The loops in `resetDomainUnits` that index the previous units by id, kind by kind. */
  method IndexPrevious(previous: Groups) returns (previousById: map<string, DomainElement>)
    ensures previousById == IndexById(Flatten(previous, previous.kinds))
  {
    previousById := map[];
    for i := 0 to |previous.kinds|
      invariant previousById == IndexById(Flatten(previous, previous.kinds[..i]))
    {
      var group := GroupOf(previous, previous.kinds[i]);
      ghost var before := Flatten(previous, previous.kinds[..i]);
      assert previous.kinds[..i + 1][..i] == previous.kinds[..i];
      assert before + group[..0] == before;
      for j := 0 to |group|
        invariant previousById == IndexById(before + group[..j])
      {
        assert (before + group[..j + 1])[..|before + group[..j]|] == before + group[..j];
        previousById := previousById[group[j].id := group[j]];
      }
      assert group[..|group|] == group;
    }
    assert previous.kinds[..|previous.kinds|] == previous.kinds;
  }

  /** The `forEach` in `resetDomainUnits` that groups the roots by kind. */
  method GroupDomains(domains: seq<DomainModel>, previousById: map<string, DomainElement>) returns (units: Groups)
    ensures units == Grouped(domains, previousById)
  {
    units := NoGroups;
    for i := 0 to |domains|
      invariant units == Grouped(domains[..i], previousById)
    {
      assert domains[..i + 1][..i] == domains[..i];
      var domain := domains[i];
      if domain.root.Some? {
        var unit := domain.root.value;
        var kind := unit.kind;
        var acc := GroupOf(units, kind);
        if unit.id in previousById {
          unit := unit.(expanded := previousById[unit.id].expanded);
        }
        acc := acc + [unit];
        units := Groups(if kind in units.byKind then units.kinds else units.kinds + [kind],
                        units.byKind[kind := acc]);
      }
    }
    assert domains[..|domains|] == domains;
  }

  class ViewModel {
    var editorSection: EditorSection
    var documentLevel: ModelLevel
    var selectedParserType: Option<EditorSection>
    var changesFromLastUpdate: nat
    var documentModelChanged: bool
    /** The whole parsed document. */
    var documentModel: ModelProxy?
    /** The location of the active (possibly nested) model, `None` when there is none. */
    var model: Option<string>
    var references: seq<ReferenceFile>
    var selectedReference: Option<ReferenceFile>
    var focusedId: string
    var domainUnits: Groups
    var referenceToDomainUnits: map<string, seq<DomainModel>>

    function Counter(): Debounce.State
      reads this
    {
      Debounce.State(changesFromLastUpdate, documentModelChanged)
    }

    ghost predicate Valid()
      reads this, documentModel
    {
      && Debounce.Valid(Counter())
      && (documentModel != null ==> documentModel.Valid())
      && (model.Some? ==> documentModel != null)
      && WellGrouped(domainUnits)
    }

    constructor ()
      ensures Valid()
      ensures editorSection == Raml && documentLevel == DocumentLevel && selectedParserType == None
      ensures Counter() == Debounce.Initial
      ensures documentModel == null && model == None && references == [] && selectedReference == None
      ensures focusedId == "" && domainUnits == NoGroups && referenceToDomainUnits == map[]
    {
      editorSection, documentLevel, selectedParserType := Raml, DocumentLevel, None;
      changesFromLastUpdate, documentModelChanged := 0, false;
      documentModel, model := null, None;
      references, selectedReference, focusedId := [], None, "";
      domainUnits, referenceToDomainUnits := NoGroups, map[];
    }

    /** The editor's content changed; the result is the snapshot its timer carries. */
    method OnContentChange() returns (snapshot: nat)
      requires Valid()
      modifies this`changesFromLastUpdate, this`documentModelChanged
      ensures Valid()
      ensures Counter() == Debounce.Edit(old(Counter())) && snapshot == changesFromLastUpdate
    {
      changesFromLastUpdate := changesFromLastUpdate + 1;
      documentModelChanged := true;
      snapshot := changesFromLastUpdate;
    }

    /** `updateDocumentModel(section)`. */
    method UpdateDocumentModel(section: Option<EditorSection>) returns (action: Action)
      requires Valid()
      modifies this`changesFromLastUpdate, this`documentModelChanged
      ensures Valid()
      ensures Counter() == Debounce.Update(old(Counter()))
      ensures action == UpdateAction(old(documentModelChanged), model, section, editorSection)
    {
      if !documentModelChanged {
        return NoAction;
      }
      documentModelChanged := false;
      changesFromLastUpdate := 0;
      if model.None? {
        return ParseAction(if section.Some? then section.value else editorSection);
      }
      action := Update(model.value, if section.Some? then section.value else editorSection);
    }

    /** The reload timer fires with the counter value of the change that set it. */
    method OnReloadTimer(snapshot: nat) returns (action: Action)
      requires Valid()
      modifies this`changesFromLastUpdate, this`documentModelChanged
      ensures Valid()
      ensures Counter() == Debounce.Fire(old(Counter()), snapshot).0
      ensures action != NoAction ==> Debounce.Fire(old(Counter()), snapshot).1
      ensures action == (if old(changesFromLastUpdate) == snapshot
                         then UpdateAction(old(documentModelChanged), model, None, editorSection)
                         else NoAction)
    {
      action := NoAction;
      if changesFromLastUpdate == snapshot {
        action := UpdateDocumentModel(None);
      }
    }

    /** `resetReferences`. */
    method ResetReferences()
      requires Valid()
      modifies this`references, documentModel
      ensures Valid() && documentModel == old(documentModel)
      ensures model.None? || documentModel == null ==> references == old(references)
      ensures model.Some? && documentModel != null ==>
        references == ReferencesOf(documentLevel, model.value, documentModel.graph, documentModel.root)
    {
      if model.Some? && documentModel != null {
        var location := model.value;
        var locs: seq<string>;
        if documentLevel == DocumentLevel {
          locs := documentModel.References();
        } else {
          locs := [location];
        }
        references := PushReferences(location, locs);
      }
    }

    /** `resetDomainUnits`. */
    method ResetDomainUnits()
      requires Valid()
      modifies this`domainUnits
      ensures Valid()
      ensures domainUnits == DomainUnits(selectedReference, old(domainUnits), referenceToDomainUnits)
    {
      var units := NoGroups;
      if selectedReference.Some? {
        var previousById := IndexPrevious(domainUnits);
        var ref := selectedReference.value;
        var domains := if ref.id in referenceToDomainUnits then referenceToDomainUnits[ref.id] else [];
        units := GroupDomains(domains, previousById);
      }
      domainUnits := units;
    }

    /** `isTopLevelUnit(unit)`. */
    method IsTopLevelUnit(id: string) returns (r: Option<DomainElement>)
      ensures r == TopLevelUnit(domainUnits, domainUnits.kinds, id)
    {
      var kinds := domainUnits.kinds;
      for n := 0 to |kinds|
        invariant TopLevelUnit(domainUnits, kinds, id) == TopLevelUnit(domainUnits, kinds[n..], id)
      {
        var group := GroupOf(domainUnits, kinds[n]);
        var found: Option<DomainElement> := None;
        for i := 0 to |group|
          invariant found == LastWithId(group[..i], id)
        {
          assert group[..i + 1][..i] == group[..i];
          if group[i].id == id {
            found := Some(group[i]);
          }
        }
        assert group[..|group|] == group;
        if found.Some? {
          return found;
        }
        assert kinds[n..][1..] == kinds[n + 1..];
      }
      return None;
    }

    /** A parse started by `doParse(section)` succeeded with model `m`. */
    method OnParsed(section: EditorSection, m: ModelProxy)
      requires Valid() && m.Valid()
      modifies this`selectedParserType, this`documentModel, this`model, this`selectedReference,
        this`focusedId, this`references, m
      ensures Valid()
      ensures documentModel == m && model == Some(m.Location()) && selectedParserType == Some(section)
      ensures selectedReference == MakeReference(m.Location(), Some(m.Location()))
      ensures focusedId == m.Location()
      ensures CanParse(selectedParserType, editorSection) <==> section == editorSection
      ensures references == ReferencesOf(documentLevel, m.Location(), m.graph, m.root)
      ensures editorSection == old(editorSection) && documentLevel == old(documentLevel)
      ensures Counter() == old(Counter()) && domainUnits == old(domainUnits)
    {
      ghost var kept := (editorSection, documentLevel, Counter(), domainUnits);
      Activate(section, m);
      assert kept == (editorSection, documentLevel, Counter(), domainUnits);
      ResetReferences();
      assert kept == (editorSection, documentLevel, Counter(), domainUnits);
    }

    /** The assignments `doParse`'s callback makes before `resetReferences`. */
    method Activate(section: EditorSection, m: ModelProxy)
      requires Valid() && m.Valid()
      modifies this`selectedParserType, this`documentModel, this`model, this`selectedReference, this`focusedId
      ensures Valid()
      ensures documentModel == m && model == Some(m.Location()) && selectedParserType == Some(section)
      ensures selectedReference == MakeReference(m.Location(), Some(m.Location()))
      ensures focusedId == m.Location()
    {
      var location := m.Location();
      selectedParserType, documentModel, model := Some(section), m, Some(location);
      selectedReference, focusedId := MakeReference(location, Some(location)), location;
    }

    /**
     * `selectNavigatorFile(reference)`: first the pending update, then,
     * unless the reference is already selected, `FocusReference`.
     */
    method SelectNavigatorFile(reference: ReferenceFile) returns (action: Action, threw: bool)
      requires Valid()
      modifies this`changesFromLastUpdate, this`documentModelChanged, this`focusedId, this`model,
        this`selectedReference, this`domainUnits, documentModel
      ensures Valid() && documentModel == old(documentModel)
      ensures Counter() == Debounce.Update(old(Counter()))
      ensures action == UpdateAction(old(documentModelChanged), old(model), None, editorSection)
      ensures old(selectedReference).Some? && old(selectedReference).value.id == reference.id ==>
        && !threw && focusedId == old(focusedId) && model == old(model)
        && selectedReference == old(selectedReference) && domainUnits == old(domainUnits)
      ensures old(selectedReference).None? || old(selectedReference).value.id != reference.id ==>
        Focused(reference, threw, old(model), old(selectedReference), old(domainUnits))
    {
      action := UpdateDocumentModel(None);
      threw := false;
      if selectedReference.None? || selectedReference.value.id != reference.id {
        threw := FocusReference(reference);
      }
    }

    /** The state after `FocusReference(reference)` from the given one. */
    ghost predicate Focused(reference: ReferenceFile, threw: bool, model0: Option<string>,
                            selected0: Option<ReferenceFile>, units0: Groups)
      requires Valid()
      reads this, documentModel
    {
      && focusedId == reference.id
      && (threw <==> (documentModel != null &&
                      NestedLocation(documentModel.graph, documentModel.root, reference.id).None?))
      && (threw ==> (model == model0 && selectedReference == selected0 && domainUnits == units0))
      && (!threw ==> (selectedReference == Some(reference) &&
                      domainUnits == DomainUnits(Some(reference), units0, referenceToDomainUnits)))
      && (!threw && documentModel == null ==> model == model0)
      && (!threw && documentModel != null ==>
            model == NestedLocation(documentModel.graph, documentModel.root, reference.id))
    }

    /**
     * The body of `selectNavigatorFile` past its guard: focus the reference,
     * make its model active, select it and recompute the domain units.
     * `threw` reports the exception `nestedModel` raises when no transitive
     * reference matches; by then only the focus has changed.
     */
    method FocusReference(reference: ReferenceFile) returns (threw: bool)
      requires Valid()
      modifies this`focusedId, this`model, this`selectedReference, this`domainUnits, documentModel
      ensures Valid() && documentModel == old(documentModel)
      ensures Counter() == old(Counter()) && documentModelChanged == old(documentModelChanged)
      ensures Focused(reference, threw, old(model), old(selectedReference), old(domainUnits))
    {
      focusedId := reference.id;
      threw := ActivateNested(reference.id);
      if threw {
        return;
      }
      selectedReference := Some(reference);
      ResetDomainUnits();
    }

    /**
     * `this.model = this.documentModel.nestedModel(id)` when there is a
     * document; `threw` when `nestedModel` throws, and then `model` is kept.
     */
    method ActivateNested(id: string) returns (threw: bool)
      requires Valid()
      modifies this`model, documentModel
      ensures Valid() && documentModel == old(documentModel)
      ensures threw <==> (documentModel != null && NestedLocation(documentModel.graph, documentModel.root, id).None?)
      ensures threw || documentModel == null ==> model == old(model)
      ensures !threw && documentModel != null ==> model == NestedLocation(documentModel.graph, documentModel.root, id)
    {
      threw := false;
      var doc := documentModel;
      if doc != null {
        if doc.Location() != id {
          var nested := doc.NestedModel(id);
          NestedLocationOf(doc.graph, doc.root, id, nested);
          if nested.Undefined? {
            return true;
          }
          model := Some(doc.graph[nested.unit].location);
        } else {
          model := Some(doc.Location());
        }
      }
    }

  }
}

=== FILE: Sequences.dfy ===
/** Small facts about sequences shared by the other modules. */
module Sequences {
  /** No element occurs twice. */
  predicate Distinct<T(==)>(s: seq<T>) {
    forall i, j :: 0 <= i < j < |s| ==> s[i] != s[j]
  }

  /**
   * The elements of `s`, each once, in the order of their first occurrence
   * (the key order of a JavaScript object filled from `s`).
   */
  function FirstOccurrences<T(==,!new)>(s: seq<T>): (r: seq<T>)
    ensures forall x :: x in r <==> x in s
    ensures Distinct(r)
  {
    if |s| == 0 then []
    else
      var p := FirstOccurrences(s[..|s| - 1]);
      if s[|s| - 1] in p then p else p + [s[|s| - 1]]
  }
}

=== FILE: Strings.dfy ===
/**
 * The JavaScript string operations the core relies on (`indexOf`, `split`,
 * `join`, "starts with"), over `string` = `seq<char>`.  Every separator the
 * core passes is a non-empty literal, so the separator is required non-empty.
 */
module Strings {

  /** `sep` occurs in `s` starting at index `i`. */
  predicate OccursAt(s: string, sep: string, i: nat) {
    i + |sep| <= |s| && s[i..i + |sep|] == sep
  }

  /** `sep` occurs nowhere in `s`. */
  ghost predicate Free(s: string, sep: string) {
    forall i: nat :: !OccursAt(s, sep, i)
  }

  /** `s.indexOf(sep, k)`: the first occurrence at or after `k`, or -1. */
  function IndexFrom(s: string, sep: string, k: nat): (r: int)
    requires |sep| > 0
    decreases |s| - k
    ensures r == -1 || (k <= r && OccursAt(s, sep, r))
    ensures r == -1 ==> forall j: nat :: k <= j ==> !OccursAt(s, sep, j)
    ensures r >= 0 ==> forall j: nat :: k <= j < r ==> !OccursAt(s, sep, j)
  {
    if k + |sep| > |s| then -1
    else if s[k..k + |sep|] == sep then k
    else IndexFrom(s, sep, k + 1)
  }

  /** `s.indexOf(sep)`. */
  function IndexOf(s: string, sep: string): (r: int)
    requires |sep| > 0
    ensures r == -1 <==> Free(s, sep)
    ensures r >= 0 ==> OccursAt(s, sep, r) && forall j: nat :: j < r ==> !OccursAt(s, sep, j)
  {
    IndexFrom(s, sep, 0)
  }

  /** `s.indexOf(prefix) === 0`, stated directly. */
  predicate StartsWith(s: string, prefix: string) {
    |prefix| <= |s| && s[..|prefix|] == prefix
  }

  lemma IndexOfZeroIsPrefix(s: string, prefix: string)
    requires |prefix| > 0
    ensures IndexOf(s, prefix) == 0 <==> StartsWith(s, prefix)
  {
    if StartsWith(s, prefix) {
      assert OccursAt(s, prefix, 0);
    }
  }

  /**
   * `s.split(sep)`: the pieces between non-overlapping occurrences of `sep`,
   * found left to right.  There is always at least one piece.
   */
  function Split(s: string, sep: string): (parts: seq<string>)
    requires |sep| > 0
    decreases |s|
    ensures |parts| >= 1
    ensures IndexOf(s, sep) < 0 ==> parts == [s]
    ensures IndexOf(s, sep) >= 0 ==> |parts| >= 2 && parts[0] == s[..IndexOf(s, sep)]
  {
    var i := IndexOf(s, sep);
    if i < 0 then [s] else [s[..i]] + Split(s[i + |sep|..], sep)
  }

  /** `parts.join(sep)`. */
  function Join(parts: seq<string>, sep: string): string {
    if |parts| == 0 then ""
    else if |parts| == 1 then parts[0]
    else parts[0] + sep + Join(parts[1..], sep)
  }

  /** Joining the pieces of a split gives back the original text. */
  lemma {:induction false} JoinSplit(s: string, sep: string)
    requires |sep| > 0
    decreases |s|
    ensures Join(Split(s, sep), sep) == s
  {
    var i := IndexOf(s, sep);
    if i >= 0 {
      var rest := s[i + |sep|..];
      JoinSplit(rest, sep);
      assert Split(s, sep) == [s[..i]] + Split(rest, sep);
      assert s == s[..i] + sep + rest by {
        assert s[i..i + |sep|] == sep;
      }
    }
  }

  /** The text before the first occurrence of the separator does not contain it. */
  lemma PrefixBeforeFirstIsFree(s: string, sep: string)
    requires |sep| > 0 && IndexOf(s, sep) >= 0
    ensures Free(s[..IndexOf(s, sep)], sep)
  {
    var i := IndexOf(s, sep);
    var p := s[..i];
    forall j: nat | OccursAt(p, sep, j) ensures false {
      assert p[j..j + |sep|] == s[j..j + |sep|];
      assert OccursAt(s, sep, j);
    }
  }

  /** A text without the separator splits into itself. */
  lemma SplitWithoutSeparator(s: string, sep: string)
    requires |sep| > 0 && IndexOf(s, sep) < 0
    ensures Split(s, sep) == [s] && Free(s, sep)
  {
  }

  /** One step of a split: the first piece, then the split of the rest. */
  lemma SplitUnfold(s: string, sep: string)
    requires |sep| > 0 && IndexOf(s, sep) >= 0
    ensures var i := IndexOf(s, sep); Split(s, sep) == [s[..i]] + Split(s[i + |sep|..], sep)
  {
  }

  /** A later piece of a split is a piece of the split of the text after the first separator. */
  lemma SplitLaterPiece(s: string, sep: string, k: nat)
    requires |sep| > 0 && IndexOf(s, sep) >= 0 && 0 < k < |Split(s, sep)|
    ensures var rest := s[IndexOf(s, sep) + |sep|..];
      k - 1 < |Split(rest, sep)| && Split(s, sep)[k] == Split(rest, sep)[k - 1]
  {
    SplitUnfold(s, sep);
  }

  /** No piece of a split contains the separator. */
  lemma {:induction false} SplitPiecesAreFree(s: string, sep: string, k: nat)
    requires |sep| > 0
    requires k < |Split(s, sep)|
    decreases |s|
    ensures Free(Split(s, sep)[k], sep)
  {
    if IndexOf(s, sep) < 0 {
      SplitWithoutSeparator(s, sep);
    } else if k == 0 {
      PrefixBeforeFirstIsFree(s, sep);
    } else {
      SplitLaterPiece(s, sep, k);
      SplitPiecesAreFree(s[IndexOf(s, sep) + |sep|..], sep, k - 1);
    }
  }



  /** Splitting `head + [c] + tail` on `[c]` where `head` has no `c`. */
  lemma SplitAfterFreeHead(head: string, c: char, tail: string)
    requires c !in head
    ensures Split(head + [c] + tail, [c]) == [head] + Split(tail, [c])
  {
    var s := head + [c] + tail;
    assert OccursAt(s, [c], |head|) by {
      assert s[|head|..|head| + 1] == [c];
    }
    var i := IndexOf(s, [c]);
    forall j: nat | j < |head| ensures !OccursAt(s, [c], j) {
      assert s[j..j + 1] == [head[j]];
    }
    assert i == |head|;
    assert s[..i] == head;
    assert s[|head| + 1..] == tail;
  }

  /** For a one-character separator, "free of it" is plain non-membership. */
  lemma FreeOfChar(s: string, c: char)
    ensures Free(s, [c]) <==> c !in s
  {
    if c in s {
      var k :| 0 <= k < |s| && s[k] == c;
      assert s[k..k + 1] == [c];
      assert OccursAt(s, [c], k);
    }
    if !Free(s, [c]) {
      var j: nat :| OccursAt(s, [c], j);
      assert s[j] == s[j..j + 1][0];
    }
  }
}

=== FILE: Utils.dfy ===
/** `src/utils.ts`: the short `/segment#fragment` label of a unit or element URI. */
module Utils {
  import opened Strings

  /** `parts.pop()` on a non-empty split result. */
  function Last(parts: seq<string>): string
    requires |parts| > 0
  {
    parts[|parts| - 1]
  }

  /**
   * `label(uri)`.  With a '#': "/" + the last '/'-piece of the text before
   * the first '#' + "#" + the text between the first and second '#'.
   * Without: "/" + the last '/'-piece, falling back on `uri` when that is
   * empty (JavaScript's `||`).
   */
  function Label(uri: string): (r: string)
    ensures |r| >= 1 && r[0] == '/'
  {
    if IndexOf(uri, "#") > -1 then
      var hashPart := Split(uri, "#")[1];
      var base := Split(uri, "#")[0];
      "/" + Last(Split(base, "/")) + "#" + hashPart
    else
      var l := "/" + Last(Split(uri, "/"));
      if l != "" then l else uri
  }

  /**
   * Reference definition, written independently of `split`: the longest
   * suffix of `s` that does not contain `c`.
   */
  function AfterLast(s: string, c: char): (r: string)
    ensures c !in r
    ensures |r| <= |s| && r == s[|s| - |r|..]
    ensures |r| < |s| ==> s[|s| - |r| - 1] == c
  {
    if |s| == 0 then ""
    else if s[|s| - 1] == c then ""
    else AfterLast(s[..|s| - 1], c) + [s[|s| - 1]]
  }

  /** Everything up to the last `c` does not matter to `AfterLast`. */
  lemma {:induction false} AfterLastAppend(a: string, c: char, b: string)
    decreases |b|
    ensures AfterLast(a + [c] + b, c) == AfterLast(b, c)
  {
    var s := a + [c] + b;
    if |b| == 0 {
      assert s[|s| - 1] == c;
    } else if b[|b| - 1] == c {
      assert s[|s| - 1] == c;
    } else {
      var b' := b[..|b| - 1];
      assert s[..|s| - 1] == a + [c] + b';
      AfterLastAppend(a, c, b');
    }
  }

  /** The last piece of a one-character split is the text after the last separator. */
  lemma {:induction false} LastPieceIsAfterLast(s: string, c: char)
    decreases |s|
    ensures Last(Split(s, [c])) == AfterLast(s, c)
  {
    if IndexOf(s, [c]) < 0 {
      FreeOfChar(s, c);
      SplitWithoutSeparator(s, [c]);
      NoSeparatorIsWhole(s, c);
    } else {
      LastPieceSkipsFirst(s, c);
      AfterLastSkipsFirst(s, c);
      LastPieceIsAfterLast(s[IndexOf(s, [c]) + 1..], c);
    }
  }

  /** The last piece of a split is the last piece of the split of the text after the first separator. */
  lemma LastPieceSkipsFirst(s: string, c: char)
    requires IndexOf(s, [c]) >= 0
    ensures Last(Split(s, [c])) == Last(Split(s[IndexOf(s, [c]) + 1..], [c]))
  {
    SplitUnfold(s, [c]);
    LastOfAppend([s[..IndexOf(s, [c])]], Split(s[IndexOf(s, [c]) + 1..], [c]));
  }

  lemma LastOfAppend(a: seq<string>, b: seq<string>)
    requires |b| > 0
    ensures Last(a + b) == Last(b)
  {
  }

  /** Everything up to the first `c` does not matter to `AfterLast`. */
  lemma AfterLastSkipsFirst(s: string, c: char)
    requires IndexOf(s, [c]) >= 0
    ensures AfterLast(s, c) == AfterLast(s[IndexOf(s, [c]) + 1..], c)
  {
    CutAtFirst(s, c);
    AfterLastAppend(s[..IndexOf(s, [c])], c, s[IndexOf(s, [c]) + 1..]);
  }

  /** The text is the part before its first `c`, the `c`, and the rest. */
  lemma CutAtFirst(s: string, c: char)
    requires IndexOf(s, [c]) >= 0
    ensures var i := IndexOf(s, [c]); s == s[..i] + [c] + s[i + 1..]
  {
    var i := IndexOf(s, [c]);
    assert s[i..i + 1] == [c];
  }


  lemma {:induction false} NoSeparatorIsWhole(s: string, c: char)
    requires c !in s
    decreases |s|
    ensures AfterLast(s, c) == s
  {
    if |s| > 0 {
      assert s[|s| - 1] in s;
      NoSeparatorIsWhole(s[..|s| - 1], c);
      assert s[..|s| - 1] + [s[|s| - 1]] == s;
    }
  }

  /** The text after the first '#' up to the next '#' (or the end). */
  function HashFragment(uri: string, i: nat): string
    requires i < |uri|
  {
    var rest := uri[i + 1..];
    var j := IndexOf(rest, "#");
    if j < 0 then rest else rest[..j]
  }

  /** A uri with a '#' at first index `i` labels as "/" + last segment of uri[..i] + "#" + fragment. */
  lemma LabelOfFragmentUri(uri: string)
    requires '#' in uri
    ensures var i := IndexOf(uri, "#");
      0 <= i < |uri| &&
      Label(uri) == "/" + AfterLast(uri[..i], '/') + "#" + HashFragment(uri, i)
  {
    FreeOfChar(uri, '#');
    assert "#" == ['#'];
    var i := IndexOf(uri, "#");
    assert i >= 0;
    var rest := uri[i + 1..];
    var parts := Split(uri, "#");
    assert parts == [uri[..i]] + Split(rest, "#");
    assert parts[1] == HashFragment(uri, i);
    assert Label(uri) == "/" + Last(Split(uri[..i], "/")) + "#" + parts[1];
    assert "/" == ['/'];
    LastPieceIsAfterLast(uri[..i], '/');
  }

  /** A uri with no '#' labels as "/" + its last '/'-segment: exactly one '/'. */
  lemma LabelOfPlainUri(uri: string)
    requires '#' !in uri
    ensures Label(uri) == "/" + AfterLast(uri, '/')
    ensures '/' !in Label(uri)[1..] && '#' !in Label(uri)
  {
    FreeOfChar(uri, '#');
    assert "#" == ['#'];
    assert IndexOf(uri, "#") == -1;
    var l := "/" + Last(Split(uri, "/"));
    assert Label(uri) == l;
    LastPieceIsAfterLast(uri, '/');
    assert "/" == ['/'];
    assert l[1..] == AfterLast(uri, '/');
  }

  /** A plain uri ending in '/' labels as "/". */
  lemma LabelOfDirectoryUri(uri: string)
    requires '#' !in uri && |uri| > 0 && uri[|uri| - 1] == '/'
    ensures Label(uri) == "/"
  {
    LabelOfPlainUri(uri);
  }

  /** A uri with neither '/' nor '#' labels as "/" + uri. */
  lemma LabelOfBareName(uri: string)
    requires '#' !in uri && '/' !in uri
    ensures Label(uri) == "/" + uri
  {
    LabelOfPlainUri(uri);
    NoSeparatorIsWhole(uri, '/');
  }
}

=== FILE: Validation.dfy ===
/**
 * `src/validation/view_model.ts`: the shape validation page.  A shape is
 * parsed from the shape editor, a payload is validated against it, and the
 * shapes with errors are marked by a key derived from their ids.  Parsing,
 * generation and payload validation are done by an external library:
 * their results are parameters of the callback methods.
 */
module Validation {
  import opened Wrappers
  import opened Strings

  /** The marker the error keys are cut at. */
  const Marker := "document/type"

  /** The header put in front of a RAML shape before parsing. */
  const RamlHeader := "#%RAML 1.0 DataType\n"

  datatype Section = Raml | OpenApi | ApiModel

  /** A shape, by its id (`getId()` may be null). */
  datatype Shape = Shape(id: Option<string>)

  /** A validation result: its `id` (possibly undefined) and its `validationId`. */
  datatype ValidationResult = ValidationResult(id: Option<string>, validationId: string)

  // ---------------------------------------------------------------------
  // Error keys (`hasError`, `errorsMapShape`).
  // ---------------------------------------------------------------------

  /** `id.split("document/type")[1]`: `None` (undefined) when the marker does not occur. */
  function ErrorKey(id: string): Option<string> {
    var parts := Split(id, Marker);
    if |parts| >= 2 then Some(parts[1]) else None
  }

  /** Property-name coercion: an undefined key becomes "undefined". */
  function KeyName(k: Option<string>): string {
    if k.None? then "undefined" else k.value
  }

  /**
   * The key is the text between the first occurrence of the marker and the
   * next one (or the end); undefined when the marker does not occur.
   */
  lemma ErrorKeySpec(id: string)
    ensures IndexOf(id, Marker) < 0 ==> ErrorKey(id) == None
    ensures IndexOf(id, Marker) >= 0 ==>
      var rest := id[IndexOf(id, Marker) + |Marker|..];
      var j := IndexOf(rest, Marker);
      ErrorKey(id) == Some(if j < 0 then rest else rest[..j])
    ensures ErrorKey(id).Some? ==> Free(ErrorKey(id).value, Marker)
  {
    if IndexOf(id, Marker) >= 0 {
      SplitUnfold(id, Marker);
      SplitPiecesAreFree(id, Marker, 1);
    }
  }

  /** `errorsMapShape`: every result's key, mapped to true (the `reduce` over the results). */
  function ErrorsMap(results: seq<ValidationResult>): (m: map<string, bool>)
    ensures forall k :: k in m ==> m[k]
    ensures forall k :: k in m <==>
      exists i :: 0 <= i < |results| && KeyName(ErrorKey(results[i].validationId)) == k
  {
    if |results| == 0 then map[]
    else
      var pre := results[..|results| - 1];
      var m := ErrorsMap(pre)[KeyName(ErrorKey(results[|results| - 1].validationId)) := true];
      assert forall i :: 0 <= i < |pre| ==> pre[i] == results[i];
      m
  }

  /** `hasError(shape)`: the shape's key is in the map (a null id counts as ""). */
  function HasError(errorsMapShape: map<string, bool>, shapeId: Option<string>): bool {
    var k := KeyName(ErrorKey(if shapeId.Some? then shapeId.value else ""));
    k in errorsMapShape && errorsMapShape[k]
  }

  /** A shape is marked exactly when some result's validation id yields the same key. */
  lemma HasErrorSpec(results: seq<ValidationResult>, shapeId: Option<string>)
    ensures HasError(ErrorsMap(results), shapeId) <==>
      exists i :: 0 <= i < |results| &&
        KeyName(ErrorKey(results[i].validationId)) == KeyName(ErrorKey(if shapeId.Some? then shapeId.value else ""))
  {
    var key := KeyName(ErrorKey(if shapeId.Some? then shapeId.value else ""));
    assert HasError(ErrorsMap(results), shapeId) <==> key in ErrorsMap(results);
  }

  /** Every id without the marker yields the key "undefined". */
  lemma UnmarkedKey(id: string)
    requires IndexOf(id, Marker) < 0
    ensures KeyName(ErrorKey(id)) == "undefined"
  {
    ErrorKeySpec(id);
  }

  /**
   * Ids without the marker all share the key "undefined", so a shape
   * without it is marked as soon as any result without it exists.
   */
  lemma HasErrorUnmarked(results: seq<ValidationResult>, shapeId: Option<string>)
    ensures (IndexOf(if shapeId.Some? then shapeId.value else "", Marker) < 0 &&
             exists i :: 0 <= i < |results| && IndexOf(results[i].validationId, Marker) < 0)
            ==> HasError(ErrorsMap(results), shapeId)
  {
    if IndexOf(if shapeId.Some? then shapeId.value else "", Marker) < 0 &&
       exists i :: 0 <= i < |results| && IndexOf(results[i].validationId, Marker) < 0
    {
      var i :| 0 <= i < |results| && IndexOf(results[i].validationId, Marker) < 0;
      UnmarkedKey(results[i].validationId);
      UnmarkedKey(if shapeId.Some? then shapeId.value else "");
      HasErrorSpec(results, shapeId);
    }
  }


  // ---------------------------------------------------------------------
  // Selection.
  // ---------------------------------------------------------------------

  /** `selectShape`: replace the selection only if there is none or its id differs. */
  function SelectShape(current: Option<Shape>, shape: Shape): Option<Shape> {
    if current.None? || current.value.id != shape.id then Some(shape) else current
  }

  /** `selectError`: the same rule on the results' `id`. */
  function SelectError(current: Option<ValidationResult>, error: ValidationResult): Option<ValidationResult> {
    if current.None? || current.value.id != error.id then Some(error) else current
  }

  /**
   * After a selection something with the given id is selected; selecting
   * the same thing again changes nothing; a shape with the same id as the
   * selected one does not replace it.
   */
  lemma SelectionSpec(current: Option<Shape>, shape: Shape, currentError: Option<ValidationResult>,
                      error: ValidationResult)
    ensures SelectShape(current, shape).Some? && SelectShape(current, shape).value.id == shape.id
    ensures SelectShape(SelectShape(current, shape), shape) == SelectShape(current, shape)
    ensures current.Some? && current.value.id == shape.id ==> SelectShape(current, shape) == current
    ensures SelectError(currentError, error).Some? && SelectError(currentError, error).value.id == error.id
    ensures SelectError(SelectError(currentError, error), error) == SelectError(currentError, error)
    ensures currentError.Some? && currentError.value.id == error.id ==>
      SelectError(currentError, error) == currentError
  {
  }

  // ---------------------------------------------------------------------
  // The RAML header.
  // ---------------------------------------------------------------------

  /** The parser and text `parsingFn` hands to the library in the RAML section. */
  function RamlParseInput(text: string): (string, string) {
    ("RAML 1.0", RamlHeader + text)
  }

  /** What the shape editor shows of generated RAML: everything after the first line. */
  function DropFirstLine(generated: string): string {
    Join(Split(generated, "\n")[1..], "\n")
  }

  /** Dropping the first line of the text the parser got gives back the user's text. */
  lemma HeaderRoundTrip(text: string)
    ensures DropFirstLine(RamlParseInput(text).1) == text
  {
    var head := "#%RAML 1.0 DataType";
    assert RamlHeader + text == head + ['\n'] + text;
    assert "\n" == ['\n'];
    SplitAfterFreeHead(head, '\n', text);
    JoinSplit(text, "\n");
  }

  // ---------------------------------------------------------------------
  // The view model.
  // ---------------------------------------------------------------------

  class ViewModel {
    var editorSection: Section
    var shapes: seq<Shape>
    var errors: seq<ValidationResult>
    var selectedShape: Option<Shape>
    var selectedError: Option<ValidationResult>
    var errorsMapShape: map<string, bool>
    /** The shape the parsed document encodes, its syntax and the text it came from. */
    var model: Option<Shape>
    var modelSyntax: Option<Section>
    var modelText: Option<string>

    constructor ()
      ensures editorSection == Raml && shapes == [] && errors == []
      ensures selectedShape == None && selectedError == None && errorsMapShape == map[]
      ensures model == None && modelSyntax == None && modelText == None
    {
      editorSection := Raml;
      shapes, errors := [], [];
      selectedShape, selectedError := None, None;
      errorsMapShape := map[];
      model, modelSyntax, modelText := None, None, None;
    }

    method SelectShapeOf(shape: Shape)
      modifies this`selectedShape
      ensures selectedShape == SelectShape(old(selectedShape), shape)
    {
      if selectedShape.None? || selectedShape.value.id != shape.id {
        selectedShape := Some(shape);
      }
    }

    method SelectErrorOf(error: ValidationResult)
      modifies this`selectedError
      ensures selectedError == SelectError(old(selectedError), error)
    {
      if selectedError.None? || selectedError.value.id != error.id {
        selectedError := Some(error);
      }
    }

    /**
     * The parse of section `section` finished, `encodes` being the shape
     * the document encodes, if any, and `editorText` the editor's text now.
     * When starting the validation throws, the selection, shapes and errors
     * are put back, but the model, its syntax and its text stay new.
     * The result says whether a validation was started.
     */
    method OnParsed(section: Section, encodes: Option<Shape>, editorText: string, validateThrows: bool)
      returns (validating: bool)
      modifies this`model, this`modelSyntax, this`modelText, this`selectedShape, this`shapes, this`errors
      ensures validating <==> encodes.Some? && !validateThrows
      ensures encodes.None? ==>
        && model == old(model) && modelSyntax == old(modelSyntax) && modelText == old(modelText)
        && selectedShape == old(selectedShape) && shapes == old(shapes)
      ensures encodes.Some? ==>
        model == encodes && modelSyntax == Some(section) && modelText == Some(editorText)
      ensures encodes.Some? && !validateThrows ==> selectedShape == encodes && shapes == [encodes.value]
      ensures validateThrows || encodes.None? ==> selectedShape == old(selectedShape) && shapes == old(shapes)
      ensures errors == old(errors)
    {
      var oldShape, oldShapes, oldErrors := selectedShape, shapes, errors;
      validating := false;
      if encodes.Some? {
        model := encodes;
        modelSyntax := Some(section);
        modelText := Some(editorText);
        selectedShape := encodes;
        shapes := [encodes.value];
        if validateThrows {
          selectedShape := oldShape;
          shapes := oldShapes;
          errors := oldErrors;
        } else {
          validating := true;
        }
      }
    }

    /** The validation report arrived: its results and the error keys they yield. */
    method OnValidationReport(results: seq<ValidationResult>)
      modifies this`errors, this`errorsMapShape
      ensures errors == results && errorsMapShape == ErrorsMap(results)
      ensures forall id :: HasError(errorsMapShape, id) <==>
        exists i :: 0 <= i < |results| &&
          KeyName(ErrorKey(results[i].validationId)) == KeyName(ErrorKey(if id.Some? then id.value else ""))
    {
      errors := results;
      errorsMapShape := ErrorsMap(results);
      forall id: Option<string> ensures HasError(errorsMapShape, id) <==>
        exists i :: 0 <= i < |results| &&
          KeyName(ErrorKey(results[i].validationId)) == KeyName(ErrorKey(if id.Some? then id.value else ""))
      {
        HasErrorSpec(results, id);
      }
    }
  }
}

=== FILE: Visualization.dfy ===
/**
 * `src/visualization/view_model.ts`: the AML visualization page, with a
 * document and a dialect editor section, the same edit debounce as the
 * playground, and the list of document units shown in the navigator.
 * Parsing and unit extraction are done by an external library: their
 * results are parameters of the callback methods.
 */
module Visualization {
  import opened Wrappers
  import Debounce

  datatype EditorSection = DocumentSection | DialectSection

  /** The two model fields, `documentModel` and `dialectModel`. */
  datatype ModelName = DocumentModel | DialectModel

  /** A parsed unit, by what this page reads of it. */
  datatype BaseUnit = BaseUnit(location: string, raw: string)

  /** A document unit in the navigator; `expanded` may be unset. */
  datatype Document = Document(id: string, expanded: Option<bool>)

  /** `getModelName(section)`: the section defaults to the current one. */
  function GetModelName(section: Option<EditorSection>, editorSection: EditorSection): (r: ModelName)
    ensures section.Some? ==> (r == DocumentModel <==> section.value == DocumentSection)
    ensures section.None? ==> (r == DocumentModel <==> editorSection == DocumentSection)
  {
    var s := if section.Some? then section.value else editorSection;
    if s == DocumentSection then DocumentModel else DialectModel
  }

  /** `unitsMap`: the previous units by id; a later unit overwrites an earlier one. */
  function ById(docs: seq<Document>): map<string, Document> {
    if |docs| == 0 then map[]
    else ById(docs[..|docs| - 1])[docs[|docs| - 1].id := docs[|docs| - 1]]
  }

  /** The new units in order, each taking `expanded` from the previous unit with its id. */
  function Carried(docs: seq<Document>, previous: map<string, Document>): (r: seq<Document>)
    ensures |r| == |docs|
    ensures forall i :: 0 <= i < |docs| ==> r[i].id == docs[i].id
    ensures forall i :: 0 <= i < |docs| ==>
      r[i].expanded == if docs[i].id in previous then previous[docs[i].id].expanded else docs[i].expanded
  {
    seq(|docs|, i requires 0 <= i < |docs| =>
      if docs[i].id in previous then docs[i].(expanded := previous[docs[i].id].expanded) else docs[i])
  }

  ghost predicate IsLastWithId(docs: seq<Document>, id: string, i: nat) {
    i < |docs| && docs[i].id == id && forall j :: i < j < |docs| ==> docs[j].id != id
  }

  /** The unit under an id is the LAST previous unit with that id. */
  lemma {:induction false} ByIdLast(docs: seq<Document>, id: string)
    ensures id in ById(docs) <==> exists i :: 0 <= i < |docs| && docs[i].id == id
    ensures id in ById(docs) ==> exists i: nat :: IsLastWithId(docs, id, i) && ById(docs)[id] == docs[i]
  {
    if |docs| > 0 {
      var n := |docs| - 1;
      var pre := docs[..n];
      ByIdLast(pre, id);
      assert ById(docs) == ById(pre)[docs[n].id := docs[n]];
      if docs[n].id == id {
        assert IsLastWithId(docs, id, n);
      } else if id in ById(pre) {
        var i: nat :| IsLastWithId(pre, id, i) && ById(pre)[id] == pre[i];
        assert docs[i] == pre[i];
        forall j | i < j < |docs| ensures docs[j].id != id {
          if j < n {
            assert docs[j] == pre[j];
          }
        }
        assert IsLastWithId(docs, id, i);
      } else {
        forall i | 0 <= i < |docs| ensures docs[i].id != id {
          if i < n {
            assert pre[i] == docs[i];
          }
        }
      }
    }
  }

  /**
   * `resetUnits`' carry-over: the new units in order, with `expanded` taken
   * from the last previous unit with the same id, and kept where there is
   * none.
   */
  lemma ResetUnitsCarry(docs: seq<Document>, previous: seq<Document>, i: nat)
    requires i < |docs|
    ensures var r := Carried(docs, ById(previous));
      && r[i].id == docs[i].id
      && ((forall j :: 0 <= j < |previous| ==> previous[j].id != docs[i].id) ==> r[i] == docs[i])
      && ((exists j :: 0 <= j < |previous| && previous[j].id == docs[i].id) ==>
            exists j: nat :: IsLastWithId(previous, docs[i].id, j) && r[i].expanded == previous[j].expanded)
  {
    ByIdLast(previous, docs[i].id);
  }

  /** What `onSelectedDiagramId(id, unit)` does. */
  datatype Selection = Ignored | Reveal(id: string) | Throws

  /**
   * `onSelectedDiagramId`: nothing for an undefined id or unit; otherwise
   * the element's range is looked up in the current model, which throws
   * while that model is still undefined (the guard tests for null only).
   */
  function SelectedDiagramOutcome(current: Option<BaseUnit>, id: Option<string>, hasUnit: bool): (r: Selection)
    ensures r == Ignored <==> id.None? || !hasUnit
    ensures r.Reveal? ==> current.Some? && r.id == id.value
    ensures r == Throws <==> current.None? && id.Some? && hasUnit
  {
    if id.None? || !hasUnit then Ignored
    else if current.None? then Throws
    else Reveal(id.value)
  }

  class ViewModel {
    var editorSection: EditorSection
    var documentModel: Option<BaseUnit>
    var dialectModel: Option<BaseUnit>
    var documentUnits: seq<Document>
    var changesFromLastUpdate: nat
    var someModelChanged: bool

    function Counter(): Debounce.State
      reads this
    {
      Debounce.State(changesFromLastUpdate, someModelChanged)
    }

    ghost predicate Valid()
      reads this
    {
      Debounce.Valid(Counter())
    }

    /** `this[modelName]`. */
    function Model(name: ModelName): Option<BaseUnit>
      reads this
    {
      if name == DocumentModel then documentModel else dialectModel
    }

    constructor ()
      ensures Valid() && editorSection == DocumentSection
      ensures documentModel == None && dialectModel == None && documentUnits == []
      ensures Counter() == Debounce.Initial
    {
      editorSection := DocumentSection;
      documentModel, dialectModel := None, None;
      documentUnits := [];
      changesFromLastUpdate, someModelChanged := 0, false;
    }

    /** `handleModelContentChange`; the result is the snapshot its timer carries. */
    method HandleModelContentChange() returns (snapshot: nat)
      requires Valid()
      modifies this`changesFromLastUpdate, this`someModelChanged
      ensures Valid()
      ensures Counter() == Debounce.Edit(old(Counter())) && snapshot == changesFromLastUpdate
      ensures snapshot >= 1
    {
      changesFromLastUpdate := changesFromLastUpdate + 1;
      someModelChanged := true;
      snapshot := changesFromLastUpdate;
    }

    /**
     * `updateModel(section)`: `None` when nothing changed; otherwise the
     * field the parse result will be stored in.
     */
    method UpdateModel(section: Option<EditorSection>) returns (target: Option<ModelName>)
      requires Valid()
      modifies this`changesFromLastUpdate, this`someModelChanged
      ensures Valid()
      ensures Counter() == Debounce.Update(old(Counter()))
      ensures target.Some? <==> old(someModelChanged)
      ensures target.Some? ==> target.value == GetModelName(section, editorSection)
    {
      if !someModelChanged {
        return None;
      }
      someModelChanged := false;
      changesFromLastUpdate := 0;
      target := Some(GetModelName(section, editorSection));
    }

    /**
     * The timer of a change fires.  When the counter still matches, the
     * flag is necessarily set, so `updateModel` really parses and the
     * `.then` chained on its result is safe.
     */
    method OnReloadTimer(snapshot: nat) returns (target: Option<ModelName>)
      requires Valid() && snapshot >= 1
      modifies this`changesFromLastUpdate, this`someModelChanged
      ensures Valid()
      ensures Counter() == Debounce.Fire(old(Counter()), snapshot).0
      ensures target.Some? <==> old(changesFromLastUpdate) == snapshot
      ensures target.Some? ==> target.value == GetModelName(None, editorSection)
    {
      target := None;
      if changesFromLastUpdate == snapshot {
        target := UpdateModel(None);
      }
    }

    /** A parse started by `updateModel` succeeded: `this[modelName] = model`. */
    method OnModelParsed(name: ModelName, m: BaseUnit)
      modifies this`documentModel, this`dialectModel
      ensures Model(name) == Some(m)
      ensures name == DocumentModel ==> dialectModel == old(dialectModel)
      ensures name == DialectModel ==> documentModel == old(documentModel)
    {
      if name == DocumentModel {
        documentModel := Some(m);
      } else {
        dialectModel := Some(m);
      }
    }

    /**
     * `editorSection(section)`: an observable notifies its 'beforeChange'
     * subscribers only when the value really changes, so writing the current
     * section does nothing; otherwise pending edits go to the OLD section's
     * model before the switch.
     */
    method ChangeEditorSection(section: EditorSection) returns (target: Option<ModelName>)
      requires Valid()
      modifies this`changesFromLastUpdate, this`someModelChanged, this`editorSection
      ensures Valid() && editorSection == section
      ensures section == old(editorSection) ==> target == None && Counter() == old(Counter())
      ensures section != old(editorSection) ==> Counter() == Debounce.Update(old(Counter()))
      ensures section != old(editorSection) ==> (target.Some? <==> old(someModelChanged))
      ensures target.Some? ==> target.value == GetModelName(Some(old(editorSection)), section)
      ensures target.Some? ==> (target.value == DocumentModel <==> old(editorSection) == DocumentSection)
    {
      if section == editorSection {
        target := None;
      } else {
        target := UpdateModel(Some(editorSection));
        editorSection := section;
      }
    }

    /** `loadInitialDocument` / `loadInitialDialect`: the counter is zeroed, the flag is left alone. */
    method LoadInitial()
      requires Valid()
      modifies this`changesFromLastUpdate
      ensures Valid() && Counter() == Debounce.Reset(old(Counter()))
      ensures changesFromLastUpdate == 0 && someModelChanged == old(someModelChanged)
    {
      changesFromLastUpdate := 0;
    }

    /**
     * `resetUnits` once the current model's units arrive: `None` for an
     * error, which leaves the list alone.  The result is false when the
     * current model is still undefined, where calling `units` throws.
     */
    method ResetUnits(units: Option<seq<Document>>) returns (ok: bool)
      modifies this`documentUnits
      ensures ok <==> Model(GetModelName(None, editorSection)).Some?
      ensures ok && units.Some? ==> documentUnits == Carried(units.value, ById(old(documentUnits)))
      ensures !ok || units.None? ==> documentUnits == old(documentUnits)
    {
      if Model(GetModelName(None, editorSection)).None? {
        return false;
      }
      ok := true;
      if units.Some? {
        var unitsMap := IndexUnits(documentUnits);
        documentUnits := CarryUnits(units.value, unitsMap);
      }
    }
  }

  /** The `forEach` building `unitsMap`. */
  method IndexUnits(docs: seq<Document>) returns (m: map<string, Document>)
    ensures m == ById(docs)
  {
    m := map[];
    for i := 0 to |docs|
      invariant m == ById(docs[..i])
    {
      assert docs[..i + 1][..i] == docs[..i];
      m := m[docs[i].id := docs[i]];
    }
    assert docs[..|docs|] == docs;
  }

  /** The `forEach` pushing the new units with their carried `expanded`. */
  method CarryUnits(docs: seq<Document>, unitsMap: map<string, Document>) returns (r: seq<Document>)
    ensures r == Carried(docs, unitsMap)
  {
    r := [];
    for i := 0 to |docs|
      invariant r == Carried(docs[..i], unitsMap)
    {
      var doc := docs[i];
      if doc.id in unitsMap {
        doc := doc.(expanded := unitsMap[doc.id].expanded);
      }
      r := r + [doc];
    }
    assert docs[..|docs|] == docs;
  }
}

=== FILE: Wrappers.dfy ===
/** Option for the source's `undefined`/`null` results. */
module Wrappers {
  datatype Option<+T> = None | Some(value: T)
}
